=== FILE: README.md ===
# Sybl client protocol, modelled in Dafny

This project models the protocol logic of the Sybl Python client
(`mallus`). A model is registered with the Sybl service and then serves
machine-learning jobs. The model covers:

- **Session state machine** (`client.dfy`, module `Client`). The `Sybl`
  class holds its `State` (`Authenticating`, `Heartbeat`, `ReadJob`,
  `Processing`), its message stack, the job configuration it accepted,
  and a log of the messages it sent. Each step method states its outcome
  and new state for every reply it can receive:
  - `connect` and `_is_authenticated`;
  - the heartbeat step `_message_control`;
  - `_process_job_config`;
  - `_process_job`.

  The never-ending `_begin_state_machine` is run on a finite list of read
  results. When the list runs out, the read raises `struct.error`, as a
  closed connection does.
- **Length-prefixed framing** (`wire.dfy`, `transport.dfy`). A socket is
  a `Stream`: the bytes still to receive, the bytes sent, and a count of
  `recv` calls. `recv(n)` takes at most `n` bytes. The model covers the
  4-byte big-endian prefix, the two senders (one counts characters, the
  other counts UTF-8 bytes), and the reader as written, including its
  4096-byte chunk loop. It also gives the reader as the protocol intends
  it, and the unframed transport of the legacy script.
- **Job negotiation** (`job_config.dfy`). `JobConfig.compare` is checked
  on the expected fields, the optional custom comparison function, and
  the built-in timeout and type rule.
- **Enrollment** (`enrollment.dfy` and `legacy_enrollment.dfy`).
  - `parse_message`.
  - The `verify` loop, which dispatches on `Challenge` and `AccessToken`.
  - `authenticate_challenge`, `display_access` and `save_access_tokens`.
  - The same three operations of the older root script `authenticate.py`,
    whose class is spelled `Authenication` there and here.
- **Credential store** (`credentials.dfy`). `sybl.json` is a value. The
  model covers the read-merge-write of both writers, and
  `load_access_token`.
- **Dataset preparation** (`datasets.dfy`).
  - `prepare_datasets`, on tables that are a sequence of named columns of
    equal height.
  - Attaching the saved `record_id`s to the predictions, as
    `_process_job` does.

Python's dynamic behaviour is kept:
- A call ends in `Ok`, `Raised(<exception class>)` or `Exited(status)`
  (`outcomes.dfy`).
- Messages are JSON values (`json.dfy`). Subscripting a non-dictionary,
  `in` on a string, and the truthiness of credentials behave as Python
  makes them behave.

The JSON, base64, bz2, CSV and RSA libraries are passed in as opaque
function values (`JsonCodec`, `Codecs`, `Crypto`). The environment
holding `PRIVATE_KEY` and the contents of `sybl.json` are parameters.

Where the protocol description and the code disagree, the model follows
the code:
- The client's prefix counts characters, not bytes.
- The chunk loop reads whole 4096-byte chunks rather than exactly the
  announced length.

Both cases are given as written and as intended, under Findings.

## Model

| member | source | states |
|---|---|---|
| Wire.Utf8Length | sybl/client/sybl_client.py:392-394 | The UTF-8 encoding never has fewer bytes than the text has characters. It has exactly as many if and only if the text is ASCII. |
| Wire.Be32RoundTrip | sybl/authenticate.py:281 | The 4-byte big-endian prefix of any length below 2^32 decodes (as `struct.unpack(">I")` does) back to that length. |
| Wire.Be32Canonical | sybl/authenticate.py:253 | Any 4 bytes are the prefix of the length they decode to, so decoding loses nothing. |
| Wire.CharFrame | sybl/client/sybl_client.py:390-396 | The client's frame is built unless the prefix overflows, which raises OverflowError. Its layout, a character count followed by the UTF-8 bytes, is stated by `Transport.CharFrameTruncatesNonAscii`. |
| Wire.ByteFrame | sybl/authenticate.py:278-283 | The enrollment script's frame is built unless the byte count overflows, which raises OverflowError. |
| Wire.ByteFrameLayout | sybl/authenticate.py:278-283 | A byte frame is 4 prefix bytes that decode to the payload's byte length, followed by the UTF-8 payload. |
| Wire.FramesAgreeIffAscii | sybl/client/sybl_client.py:390-396 | The two senders put the same bytes on the wire if and only if the text is ASCII. |
| Transport.ReadFrame | sybl/client/sybl_client.py:359-376 | It returns the frame or error of `ReadSpec`, leaves the rest of the stream as `ReadSpec` says, and makes that many `recv` calls. A short prefix raises struct.error. A size of at most 4096 is read with one `recv(size)`. A larger size goes through the chunk loop. |
| Transport.ReadChunks | sybl/client/sybl_client.py:366-376 | The loop accumulates the bytes of `recv(4096)` calls while `remaining`, lowered by 4096 each pass, stays positive. It makes exactly `ChunkCalls(size)` calls and consumes what it returns. |
| Transport.ChunkCallsIsCeiling | sybl/client/sybl_client.py:370-374 | The chunk loop runs ceil(size / 4096) times. |
| Transport.ChunksTakeWholeChunks | sybl/authenticate.py:259-263 | The loop takes 4096 times its number of passes in bytes (or all that is left), not `size` bytes. |
| Transport.ChunksCoverRemaining | sybl/authenticate.py:259-263 | Those chunks add up to at least `size`, and to more when `size` is not a multiple of 4096. |
| Transport.ReadCallCount | sybl/authenticate.py:250-267 | A read makes one `recv` for the prefix. It then makes one more for a frame of at most 4096 bytes, or ceil(size / 4096) more for a larger one. |
| Transport.SmallFrameRoundTrip | sybl/authenticate.py:250-267 | A byte frame of at most 4096 payload bytes is read back exactly, in two `recv` calls, and what follows it stays in the stream. |
| Transport.LargeFrameReadsWholeChunks | sybl/authenticate.py:255-265 | A larger frame is read back as the payload plus the first `pad` bytes of what follows. `pad` rounds the payload up to a multiple of 4096. |
| Transport.LargeFrameSwallowsNextFrame | sybl/authenticate.py:255-265 | Suppose the payload length is not a multiple of 4096 and another frame follows. Then the reader returns more than the payload, and the stream no longer starts with the next frame. |
| Transport.CharFrameTruncatesNonAscii | sybl/client/sybl_client.py:394 | A non-ASCII message framed by the client is read back cut to its character count. The rest of its bytes stay in front of the next frame. |
| Transport.ExactFrameRoundTrip | sybl/authenticate.py:240-244 | With a reader that takes exactly the announced number of bytes, every byte frame of any size is read back exactly and leaves the next frame untouched. |
| Transport.ReadFrameExact | sybl/authenticate.py:250-267 | The corrected loop asks only for what is still missing and subtracts what arrived. It reads what `ReadExactSpec` says: the payload, and the rest of the stream. |
| Transport.SendCharFrame | sybl/client/sybl_client.py:390-396 | The output grows by exactly the client's frame. On overflow it raises OverflowError and sends nothing. Nothing is received. |
| Transport.SendByteFrame | sybl/authenticate.py:278-283 | The output grows by exactly the byte frame. On overflow it raises OverflowError and sends nothing. |
| Transport.LegacySend | authenticate.py:66 | The legacy script sends the UTF-8 JSON text with no prefix. |
| Transport.LegacyReceive | authenticate.py:93 | One `recv(1024)` hands over the first min(1024, buffered) bytes. |
| Transport.LegacyReadBoundary | authenticate.py:89-93 | Two messages are sent back to back. One unframed read returns exactly the first if and only if the first is 1024 bytes long, or is shorter and nothing follows it. |
| JobConfigs.Lower | sybl/client/job_config.py:66 | Lower-casing keeps the length and leaves no upper-case letter. It changes nothing in a string without one. |
| JobConfigs.AllPresent | sybl/client/job_config.py:50-57 | On a dictionary it is true if and only if every expected key is present. On a value that is not a container it raises TypeError. |
| JobConfigs.JobConfig.constructor | sybl/client/job_config.py:15-22 | The defaults are `["regression", "classification"]` and 10 minutes, with no comparison function. |
| JobConfigs.JobConfig.SetComparisonFunction | sybl/client/job_config.py:24-36 | It installs the function and changes neither the types nor the timeout. |
| JobConfigs.JobConfig.Compare | sybl/client/job_config.py:38-61 | A dictionary missing an expected key is refused before any custom function runs. With all keys present, a custom function's answer is the answer. An offer that is not a container raises TypeError. As a function, `compare` changes no field. |
| JobConfigs.DefaultRule | sybl/client/job_config.py:63-75 | Under the built-in rule, a well-formed offer is accepted if and only if cutoff minus creation is at most `max_timeout * 60` and the lower-cased type is configured. |
| JobConfigs.UnlistedTypeRejected | sybl/client/job_config.py:72-75 | An unlisted type is refused, whatever the window. |
| JobConfigs.TimeoutInclusive | sybl/client/job_config.py:69-73 | A window of exactly the timeout is accepted. One second more is refused. |
| JobConfigs.OfferTypeCaseInsensitive | sybl/client/job_config.py:66 | Two offers that differ only in the case of their type get the same answer. |
| JobConfigs.UpperCaseConfiguredTypeNeverMatches | sybl/client/job_config.py:66-74 | Configured types are not lower-cased, so one containing an upper-case letter matches no offer. |
| JobConfigs.DefaultRuleErrors | sybl/client/job_config.py:64-69 | A type that is not a string raises AttributeError. A string type with a non-numeric timestamp raises TypeError. |
| Credentials.ModelKey | sybl/client/sybl_client.py:51 | The key is the email, a dot, and the model name. |
| Credentials.Entry | sybl/authenticate.py:227 | The record holds exactly `model_id` and `access_token`. |
| Credentials.Merge | sybl/authenticate.py:213-238 | A missing or empty file becomes the single new record. Text that is not JSON raises ValueError, and a document that is not an object raises TypeError. Otherwise the key is set to the record and every other key keeps its value. |
| Credentials.LegacyMerge | authenticate.py:113-129 | A missing file raises FileNotFoundError. Otherwise it is the same merge. |
| Credentials.Load | sybl/client/sybl_client.py:51-65 | A missing file raises FileNotFoundError. An empty or garbled file, an absent key, or a record without its two fields raises ValueError. A document or a record that is not an object raises TypeError. A record with both fields gives exactly its `(access_token, model_id)`. |
| Credentials.LoadAfterMerge | sybl/authenticate.py:226-238 | Loading what a successful save wrote gives back the pair that was saved. |
| Credentials.ModelKeyAmbiguous | sybl/client/sybl_client.py:51 | Two different email and model-name pairs can share a key. |
| Datasets.Without | sybl/client/sybl_client.py:76 | Dropping a name keeps exactly the columns with another name. |
| Datasets.WithoutDistributes | sybl/client/sybl_client.py:83 | Dropping keeps the order of the columns that stay. |
| Datasets.Drop | sybl/client/sybl_client.py:83 | The dropped frame has the same height and no column of that name. |
| Datasets.ColumnValues | sybl/client/sybl_client.py:80 | It raises KeyError if and only if no column has the name. Exactly one such column gives its values, one per row. Several raise AttributeError. |
| Datasets.ColumnValuesOfOnlyColumn | sybl/client/sybl_client.py:80 | When column `k` is the only one carrying the name, the result is that column's values. |
| Datasets.ColumnValuesOfSeveralColumns | sybl/client/sybl_client.py:80 | Any two columns carrying the name make the call raise AttributeError. |
| Datasets.PrepareDatasets | sybl/client/sybl_client.py:68-88 | It raises AttributeError when train has no `record_id`, and KeyError when only predict lacks one. Otherwise neither table keeps `record_id`, the other columns keep their order and heights, and the ids returned are predict's `record_id` column. |
| Datasets.PreparedIdsAreThePredictColumn | sybl/client/sybl_client.py:79-80 | When predict has one `record_id` column, the ids returned are its values in row order. |
| Datasets.SetColumn | sybl/client/sybl_client.py:299 | A wrong length raises ValueError, except on a frame without rows, which first takes the length of the values with missing cells in its other columns. A new column is appended last. An existing column is overwritten in place. The result always has the column, one row per value. |
| Datasets.Reindexed | sybl/client/sybl_client.py:299 | Re-indexing keeps every column name and leaves `n` missing cells in each. |
| Datasets.LastColumnFirst | sybl/client/sybl_client.py:300-302 | Moving the last column first keeps the height. An empty frame raises IndexError. |
| Datasets.AttachRecordIds | sybl/client/sybl_client.py:298-302 | It succeeds if and only if there is one id per row or the predictions have no rows, and otherwise raises ValueError. The result has one row per id. |
| Datasets.RecordIdFirst | sybl/client/sybl_client.py:298-302 | For predictions without `record_id` and with distinct column names, the result is the id column followed by the predictions' columns. |
| Datasets.EmptyPredictionsPadded | sybl/client/sybl_client.py:298-302 | Predictions without rows get the ids first, followed by their own columns holding only missing cells. |
| Datasets.ExistingRecordIdNotMovedFirst | sybl/client/sybl_client.py:299-302 | When the predictions already begin with `record_id`, the ids overwrite it in place and the last column is moved in front of them. |
| Datasets.RowCountsAgree | sybl/client/sybl_client.py:304 | Once ids are attached, the row-count assertion always holds. |
| Client.AccessTokenMessage | sybl/client/sybl_client.py:221-226 | The message is `{"AccessToken": {"id", "token"}}`. |
| Client.ConfigResponse | sybl/client/sybl_client.py:349-353 | The message is `{"ConfigResponse": {"accept": b}}`. |
| Client.HandleServerError | sybl/client/sybl_client.py:398-407 | A `message` of "Locked", or no `message` at all, exits with status 1. Any other `message` returns. A payload that is not a dictionary raises AttributeError. |
| Client.Screen | sybl/client/sybl_client.py:378-388 | A message that gets through is returned unchanged. One without `Server`, or whose `Server` has no `text`, gets through. A non-dictionary message or `Server` raises AttributeError. A non-string `text` raises TypeError, unparsable text ValueError, and a missing `code` KeyError. Otherwise the message gets through exactly when `HandleServerError` lets it, and its failure is raised. An exit is always exit(1). |
| Client.ServerErrorScreenedOnlyWhenSmall | sybl/client/sybl_client.py:366-388 | A `Locked` server error exits the client in a small frame, but is returned as an ordinary message in a large frame. |
| Client.ReadMessage | sybl/client/sybl_client.py:359-388 | The framed read, then decoding, then the server-error screen on the small path only. |
| Client.SendMessage | sybl/client/sybl_client.py:390-396 | A dictionary is serialised and a string is sent as it is; anything else raises AttributeError. The output grows by exactly the character-counted frame. |
| Client.Decode | sybl/client/sybl_client.py:91-101 | A non-string has no `encode` and raises AttributeError. A string succeeds exactly when base64 and bz2 accept it. |
| Client.DatasetText | sybl/client/sybl_client.py:282-283 | A `Dataset` payload that is not a dictionary raises TypeError, and a missing set raises KeyError. Otherwise it is the decoded set. |
| Client.PredictionsFor | sybl/client/sybl_client.py:289-304 | A success needs a callback and a train set with `record_id`. A missing callback is the only source of AssertionError. IndexError never occurs. |
| Client.RunJob | sybl/client/sybl_client.py:282-308 | The first failure is raised in this order: decoding `train`, decoding `predict`, parsing either set (CodecError), then the predictions. On success the reply is the compressed CSV of the predictions for the parsed sets. A success needs a callback, and a non-dictionary `Dataset` raises TypeError. |
| Client.JobRepliesWithIdsFirst | sybl/client/sybl_client.py:289-308 | For a well-formed job, the predictions sent are the predict set's ids as first column, followed by the callback's columns. |
| Client.Sybl.constructor | sybl/client/sybl_client.py:130-150 | A new client is `Authenticating`, with an empty stack, nothing sent, and no accepted configuration. |
| Client.Sybl.Open | sybl/client/sybl_client.py:121-150 | The credentials are loaded exactly when both an email and a model name are given. A failed load is raised and no client is made. After a load, a truthy callback that cannot be called raises TypeError. A falsy one leaves no callback. The session keeps the given job configuration and starts `Authenticating`. |
| Client.Sybl.RegisterCallback | sybl/client/sybl_client.py:166-169 | A value that is not callable raises TypeError and nothing changes. A function is stored as the callback. |
| Client.Sybl.LoadConfig | sybl/client/sybl_client.py:249-252 | A value that is not a `JobConfig` raises AttributeError. Otherwise the configuration is replaced. No other field changes. |
| Client.Sybl.LoadModel | sybl/client/sybl_client.py:267-270 | The loaded pair replaces the credentials and the names are recorded. A failed load changes nothing. No other field ever changes. |
| Client.Sybl.IsAuthenticated | sybl/client/sybl_client.py:219-237 | It sends exactly one `AccessToken` message. It is true if and only if the reply's `message` is exactly "Authentication successful", and false when there is no `message`. Only the sent log changes. |
| Client.Sybl.MessageControl | sybl/client/sybl_client.py:314-331 | `Alive` is echoed back with the stack unchanged. Otherwise `JobConfig`, then `Dataset`, is pushed and the state moves to `ReadJob` or `Processing`. Any other message changes nothing. Only the state, stack and sent log can change. |
| Client.Sybl.ProcessJobConfig | sybl/client/sybl_client.py:333-357 | It pops the top message. An empty stack or a top without `JobConfig` sends nothing. Otherwise it sends one `ConfigResponse` carrying `compare`'s answer, and keeps the offer only when accepted. It ends in `Heartbeat` unless `compare` raised. Credentials, callback and configuration stay as they were. |
| Client.Sybl.ProcessJob | sybl/client/sybl_client.py:272-312 | It pops the top message. An empty stack raises IndexError and a top without `Dataset` raises AssertionError. Otherwise it sends one `Predictions` message holding the job's result and moves to `Heartbeat`. Only the state, stack and sent log can change. |
| Client.Sybl.Serve | sybl/client/sybl_client.py:203-217 | The loop never returns normally, the state never goes back to `Authenticating`, and the messages sent only grow. On a run of `Alive` messages it echoes each one, then raises struct.error when the connection closes. Credentials, names, callback and configuration never change. |
| Client.Sybl.Connect | sybl/client/sybl_client.py:171-201 | The callback is checked first, then the presence of token and id (both AttributeError, nothing sent). Then one `AccessToken` message is sent. A failed read of the reply is raised, a non-dictionary reply raises TypeError, and any other reply but the success message raises PermissionError; in each case the state, stack and accepted configuration stay as they were and only the credentials were sent. Credentials, names, callback and configuration never change. On acceptance the state leaves `Authenticating`, and a run of `Alive` messages is echoed until struct.error. |
| Enrollment.ParseMessage | sybl/authenticate.py:47-69 | A one-key dictionary gives its key and value. Any other dictionary, including the empty one, raises IndexError. |
| Enrollment.NewModelMessage | sybl/authenticate.py:177-183 | The message is `{"NewModel": {"email", "password", "model_name"}}`. |
| Enrollment.ChallengeResponseMessage | sybl/authenticate.py:124-130 | The message is `{"ChallengeResponse": {"email", "model_name", "response"}}`. |
| Enrollment.Answer | sybl/authenticate.py:117-136 | A missing `challenge` raises KeyError. Without `PRIVATE_KEY` nothing is sent. Otherwise a non-string challenge raises TypeError, bad base64 ValueError and a failed signature CodecError; else exactly one `ChallengeResponse` is sent, naming this model and carrying the base64 of the signature of the decoded challenge. |
| Enrollment.TakeAccess | sybl/authenticate.py:150-162 | `token`, then `id`, are taken when present. A missing key stops silently. A payload that is not a dictionary raises TypeError. |
| Enrollment.Classify | sybl/authenticate.py:188-204 | An unparseable message is skipped. Only a `Challenge` is answered, with at most one message. A stop is always an exception. |
| Enrollment.Dialogue | sybl/authenticate.py:186-204 | The loop stops only by an exception, a closed connection included. |
| Enrollment.SkippedMessage | sybl/authenticate.py:200-204 | An unparseable message or an unknown variant sends nothing, and the loop goes on to the next message. |
| Enrollment.AccessTokenEndsLoop | sybl/authenticate.py:196-199 | An `AccessToken` ends the loop; nothing after it is read. |
| Enrollment.ScriptedEnrollment | sybl/authenticate.py:164-204 | One challenge followed by an access token sends exactly the signed answer, and then the loop is granted. |
| Enrollment.NoKeyNoReplies | sybl/authenticate.py:120-136 | Without `PRIVATE_KEY` the loop never sends anything. |
| Enrollment.RepliesAnswerChallenges | sybl/authenticate.py:186-204 | Every reply is a `ChallengeResponse` of this model, and there are never more replies than challenges read. |
| Enrollment.ReadMessage | sybl/authenticate.py:240-267 | The framed read as written, then JSON decoding (ValueError when it fails). |
| Enrollment.SendMessage | sybl/authenticate.py:269-283 | The output grows by exactly the byte-counted frame of the serialised message. |
| Enrollment.SentMessageReadBack | sybl/authenticate.py:269-283 | What one send puts on the wire is read back as the same text by the exact reader, for any length. |
| Enrollment.Authentication.constructor | sybl/authenticate.py:81-96 | The credentials start as `None`, the stream open, and nothing sent. |
| Enrollment.Authentication.AuthenticateChallenge | sybl/authenticate.py:104-136 | It sends exactly `Answer`'s messages, or raises what `Answer` raises and sends nothing. |
| Enrollment.Authentication.DisplayAccess | sybl/authenticate.py:138-162 | It leaves the credentials `TakeAccess` takes and always closes the stream. |
| Enrollment.Authentication.SaveAccessTokens | sybl/authenticate.py:206-238 | The store becomes the merged document, or is left unchanged and the error raised. |
| Enrollment.Authentication.Handle | sybl/authenticate.py:188-204 | One pass of the loop does the message's `Classify` step, and sends its reply and nothing else. |
| Enrollment.Authentication.Listen | sybl/authenticate.py:186-204 | The loop sends exactly `Dialogue`'s replies and ends as `Dialogue` ends. |
| Enrollment.Authentication.Verify | sybl/authenticate.py:164-204 | It sends `NewModel` first, then the loop's replies. When granted, it takes the credentials, closes the stream and saves them. When stopped, nothing else changes. |
| LegacyEnrollment.LegacyNewModelMessage | authenticate.py:88 | The message is `{"NewModel": {"email", "model_name"}}`. |
| LegacyEnrollment.NewModelWithoutPassword | authenticate.py:88 | The legacy announcement is the current one without `password`. |
| LegacyEnrollment.ReadMessage | authenticate.py:93 | One `recv(1024)` is parsed as a whole; ValueError when it is not one JSON document. |
| LegacyEnrollment.SendMessage | authenticate.py:89 | The output grows by the UTF-8 text with no prefix. |
| LegacyEnrollment.ParseMessageCases | authenticate.py:34-45 | A one-key dictionary gives its key and value. Two keys, or none, raise IndexError. |
| LegacyEnrollment.Authenication.constructor | authenticate.py:19-27 | The credentials start as `None`, the stream open, and nothing sent. |
| LegacyEnrollment.Authenication.AuthenticateChallenge | authenticate.py:47-69 | It sends exactly `Answer`'s messages, unframed, or raises what `Answer` raises. |
| LegacyEnrollment.Authenication.DisplayAccess | authenticate.py:71-85 | It leaves the credentials `TakeAccess` takes and always closes the stream. |
| LegacyEnrollment.Authenication.SaveAccessTokens | authenticate.py:113-129 | The store becomes the legacy merge. A missing file raises FileNotFoundError. |
| LegacyEnrollment.Authenication.Handle | authenticate.py:97-110 | One pass of the loop does the message's `Classify` step and sends its reply. |
| LegacyEnrollment.Authenication.Listen | authenticate.py:91-110 | The loop sends `Dialogue`'s replies. A closed connection raises ValueError. |
| LegacyEnrollment.Authenication.Verify | authenticate.py:87-110 | It sends the password-less `NewModel`, then the loop's replies. When granted, it takes the credentials, closes the stream and saves them with the legacy merge. |
| LegacyEnrollment.FirstSaveFails | authenticate.py:120 | With no `sybl.json` yet, the legacy save raises FileNotFoundError, while the current writer creates the file. |

## Left out

- Sockets: `connect`, the server address and connection refusal are not modelled. `recv(n)` always returns min(n, buffered) bytes, so short reads of a real socket are not modelled, and `send` writes everything.
- The session and enrollment classes receive what each read returned, one result per read. The bytes behind those results are modelled by the `ReadMessage` and `SendMessage` members over a `Stream`.
- The `while True` loops (`_begin_state_machine`, and `verify` in both scripts) run on a finite list of read results. The list running out stands for the peer closing the connection.
- JSON, base64, bz2, CSV parsing and printing, and the RSA/SHA-256 signature of PKCS #1 v1.5 (section 8.2 of RFC 8017) are opaque function values. Their failures are `None`, and their internals and round trips are not modelled.
- `json.dumps` is opaque, so the model does not know that, with its default escaping, the text of a dictionary is ASCII.
- JSON floats are not modelled (numbers are integers, and booleans count as integers). Dictionary key order is not modelled either; no modelled operation depends on it for a one-key message.
- JobConfigs.Lower: lower-cases ASCII letters only. Python's `str.lower` also maps non-ASCII letters.
- JobConfigs.JobConfig.Compare: a custom comparison function is a total function into `bool`. One that raises, or that returns a value that is not a `bool`, is not modelled.
- Client.PredictionsFor: the user callback always returns a table. One that raises, or that returns something other than a data frame, is not modelled.
- pandas tables keep only named columns of string cells and a height. Data types, index labels, and `head` and logging are left out. So is the in-place `drop` that also changes the caller's training frame.
- The filesystem is left out: the XDG path, the creation of the directory and the empty file before saving, and `load_dotenv`. `sybl.json` is a value: missing, empty, not JSON, or a document.
- `sys.exit` is the outcome `Exited(1)`. Logging and `print` are dropped.
- Command-line entry points, `input` and `getpass`, and the example scripts are not part of this model.
- `_connect` of `sybl/authenticate.py` only opens the socket and is not modelled.
- Client.Sybl.Open: the default `job_config` is one `JobConfig()` made when the class is defined, shared by every session that omits it, and its default type list is shared by every default `JobConfig`. The model takes the configuration as an argument, so this sharing between sessions is not captured.
- Wire.CharFrame, Wire.ByteFrame: their own contracts state only the overflow outcome. Their layout is stated by `Wire.ByteFrameLayout`, `Wire.FramesAgreeIffAscii` and `Transport.CharFrameTruncatesNonAscii`.

## Findings

| source | as written | input that shows it | evidently intended | confidence | as-written member | corrected member |
|---|---|---|---|---|---|---|
| sybl/client/sybl_client.py:394 | The length prefix is `len(data)`, the number of characters of the JSON text, but the bytes sent are its UTF-8 encoding. | A string message passed as it is, e.g. `_send_message("é")`: the prefix announces 1 byte and 2 are sent, so the peer reads a cut payload and the next frame starts inside this one. A dictionary is not affected in practice, because `json.dumps` escapes non-ASCII characters by default. | The prefix counts the UTF-8 bytes, as `sybl/authenticate.py:281` does. | not executed | Transport.CharFrameTruncatesNonAscii | Transport.ExactFrameRoundTrip |
| sybl/authenticate.py:255-265 (and sybl/client/sybl_client.py:366-376) | Above 4096 bytes the loop calls `recv(4096)` and subtracts 4096 whatever arrived, so it reads ceil(size/4096) whole chunks. | A 5000-byte frame followed by another frame. The reader takes 8192 bytes, including the first 3192 bytes of the next frame. | Read exactly `size` bytes, asking only for what is still missing. | not executed | Transport.LargeFrameSwallowsNextFrame | Transport.ReadFrameExact |
| authenticate.py:120 | `save_access_tokens` opens `sybl.json` for reading without creating it. | A first enrollment, with no `sybl.json` yet, raises FileNotFoundError after the token has been granted. | Create the file first, as `sybl/authenticate.py:221-224` does and as `test_authenticate.py:37-49` expects. | not executed | LegacyEnrollment.FirstSaveFails | Credentials.Merge |

=== FILE: client.dfy ===
/** The session of `sybl/client/sybl_client.py`: the `Sybl` client's state
    machine, its message stack, and what it sends in reply to what it reads.

    The class keeps a log of the messages it sends; what `_read_message`
    returned is passed to each step (one `Result` per read, so a read that
    raised is passed on as it is). The bytes on the socket are modelled by
    `ReadMessage` and `SendMessage` below over a `Transport.Stream`. */
module Client {
  import opened Outcomes
  import opened Json
  import opened Wire
  import opened Transport
  import opened JobConfigs
  import opened Credentials
  import opened Datasets

  datatype State = Authenticating | Heartbeat | ReadJob | Processing

  /** The user's machine-learning callback: training set, prediction set and
      the accepted job configuration in, predictions out. */
  type Callback = (DataFrame, DataFrame, Option<Json>) -> DataFrame

  /** A value offered as the callback: a falsy one (`None`), a truthy one
      that cannot be called, or a function. */
  datatype CallbackArg = Falsy | NotCallable | Function(f: Callback)

  /** The libraries the session relies on, treated as opaque:
      `decode_and_decompress` (`None` where base64 or bz2 raise),
      `compress_and_encode`, `pd.read_csv` and `DataFrame.to_csv`. */
  datatype Codecs = Codecs(
    json: JsonCodec,
    decodeAndDecompress: string -> Option<string>,
    compressAndEncode: string -> string,
    readCsv: string -> Option<DataFrame>,
    toCsv: DataFrame -> string)

  const AuthenticationSuccessful: string := "Authentication successful"

  /** `{"AccessToken": {"id": ..., "token": ...}}`. */
  function AccessTokenMessage(modelId: Json, accessToken: Json): (m: Json)
    ensures m.JObj? && m.fields.Keys == {"AccessToken"}
    ensures m.fields["AccessToken"] == JObj(map["id" := modelId, "token" := accessToken])
  {
    Single("AccessToken", JObj(map["id" := modelId, "token" := accessToken]))
  }

  /** `{"ConfigResponse": {"accept": ...}}`. */
  function ConfigResponse(accept: bool): (m: Json)
    ensures m.JObj? && m.fields.Keys == {"ConfigResponse"}
    ensures m.fields["ConfigResponse"] == Single("accept", JBool(accept))
  {
    Single("ConfigResponse", Single("accept", JBool(accept)))
  }

  // ---------------------------------------------------------------------
  // Reading and sending

  /** `_handle_server_error`: a payload whose `message` is `"Locked"`, and a
      payload without `message`, end the process with status 1; any other
      `message` lets the client carry on. A payload that is not a dictionary
      has no `keys` (AttributeError). */
  function HandleServerError(payload: Json): (r: Status)
    ensures r == Exited(1) <==> payload.JObj? && ("message" in payload.fields ==> payload.fields["message"] == JStr("Locked"))
    ensures r == Done <==> payload.JObj? && "message" in payload.fields && payload.fields["message"] != JStr("Locked")
    ensures r == Raised(AttributeError) <==> !payload.JObj?
  {
    if !payload.JObj? then Raised(AttributeError)
    else if "message" in payload.fields then
      if payload.fields["message"] == JStr("Locked") then Exited(1) else Done
    else Exited(1)
  }

  /** The error check of `_read_message` on a decoded message: a message
      with a `Server` entry carrying `text` has that text parsed as JSON and
      handed, with the entry's `code`, to `HandleServerError`. Every message
      that gets through is returned unchanged. */
  function Screen(codec: JsonCodec, message: Json): (r: Result<Json>)
    ensures r.Ok? ==> r.value == message
    ensures !message.JObj? ==> r == Raised(AttributeError)
    ensures message.JObj? && "Server" !in message.fields ==> r == Ok(message)
    ensures r.Exited? ==> r == Exited(1) && message.JObj? && "Server" in message.fields
    ensures message.JObj? && "Server" in message.fields ==>
      var server := message.fields["Server"];
      && (!server.JObj? ==> r == Raised(AttributeError))
      && (server.JObj? && "text" !in server.fields ==> r == Ok(message))
      && (server.JObj? && "text" in server.fields && !server.fields["text"].JStr? ==> r == Raised(TypeError))
      && (server.JObj? && "text" in server.fields && server.fields["text"].JStr? ==>
            var payload := codec.loadsText(server.fields["text"].s);
            && (payload.None? ==> r == Raised(ValueError))
            && (payload.Some? && "code" !in server.fields ==> r == Raised(KeyError))
            && (payload.Some? && "code" in server.fields ==>
                  (r.Ok? <==> HandleServerError(payload.value).Ok?) &&
                  (!r.Ok? ==> r == Fail(HandleServerError(payload.value)))))
  {
    if !message.JObj? then Raised(AttributeError)
    else if "Server" !in message.fields then Ok(message)
    else
      var server := message.fields["Server"];
      if !server.JObj? then Raised(AttributeError)
      else if "text" !in server.fields then Ok(message)
      else
        var text := server.fields["text"];
        if !text.JStr? then Raised(TypeError)
        else
          var payload := codec.loadsText(text.s);
          if payload.None? then Raised(ValueError)
          else if "code" !in server.fields then Raised(KeyError)
          else
            var handled := HandleServerError(payload.value);
            if !handled.Ok? then Fail(handled) else Ok(message)
  }

  /** The decoding half of `_read_message`: the payload is parsed as JSON;
      only a frame that did not take the large-message path is screened. */
  function Receive(codec: JsonCodec, frame: Frame): Result<Json>
  {
    var doc := codec.loads(frame.payload);
    if doc.None? then Raised(ValueError)
    else if frame.large then Ok(doc.value)
    else Screen(codec, doc.value)
  }

  /** A `Locked` server error exits the client when it arrives in a small
      frame, and is handed back as an ordinary message when it arrives in a
      large one. */
  lemma ServerErrorScreenedOnlyWhenSmall(codec: JsonCodec, payload: seq<byte>, message: Json)
    requires codec.loads(payload) == Some(message)
    requires message.JObj? && "Server" in message.fields
    requires var server := message.fields["Server"];
      server.JObj? && "text" in server.fields && "code" in server.fields && server.fields["text"].JStr?
      && codec.loadsText(server.fields["text"].s) == Some(Single("message", JStr("Locked")))
    ensures Receive(codec, Frame(payload, false)) == Exited(1)
    ensures Receive(codec, Frame(payload, true)) == Ok(message)
  {
    assert HandleServerError(Single("message", JStr("Locked"))) == Exited(1);
  }

  /** `_read_message` of the client: a frame read as written, then decoded
      and screened. */
  method ReadMessage(s: Stream, codec: JsonCodec) returns (r: Result<Json>)
    modifies s
    ensures var reading := ReadSpec(old(s.input));
      s.input == reading.rest &&
      r == if reading.result.Ok? then Receive(codec, reading.result.value) else Fail(reading.result)
    ensures s.output == old(s.output)
  {
    var frame := ReadFrame(s);
    if !frame.Ok? {
      return Fail(frame);
    }
    r := Receive(codec, frame.value);
  }

  /** `_send_message` of the client: the length prefix counts characters. */
  method SendMessage(s: Stream, codec: JsonCodec, message: Json) returns (st: Status)
    modifies s
    ensures var data := Serialize(codec, message);
      if !data.Ok? then st == Raised(AttributeError) && s.output == old(s.output)
      else if CharFrame(data.value).Ok? then st == Done && s.output == old(s.output) + CharFrame(data.value).value
      else st == Raised(OverflowError) && s.output == old(s.output)
    ensures s.input == old(s.input)
  {
    var data := Serialize(codec, message);
    if !data.Ok? {
      return Fail(data);
    }
    st := SendCharFrame(s, data.value);
  }

  // ---------------------------------------------------------------------
  // A job

  /** `decode_and_decompress(value)`: only a string has `encode`. */
  function Decode(codecs: Codecs, value: Json): (r: Result<string>)
    ensures !value.JStr? ==> r == Raised(AttributeError)
    ensures value.JStr? ==> (r.Ok? <==> codecs.decodeAndDecompress(value.s).Some?)
  {
    if !value.JStr? then Raised(AttributeError)
    else
      var text := codecs.decodeAndDecompress(value.s);
      if text.None? then Raised(CodecError) else Ok(text.value)
  }

  /** One dataset of a `Dataset` payload, looked up and decoded. */
  function DatasetText(codecs: Codecs, dataset: Json, key: string): (r: Result<string>)
    ensures !dataset.JObj? ==> r == Raised(TypeError)
    ensures dataset.JObj? && key !in dataset.fields ==> r == Raised(KeyError)
    ensures Index(dataset, key).Ok? ==> r == Decode(codecs, dataset.fields[key])
  {
    var field := Index(dataset, key);
    if !field.Ok? then Fail(field) else Decode(codecs, field.value)
  }

  /** `pd.read_csv` of a decoded dataset. */
  function ParseTable(codecs: Codecs, text: string): Result<DataFrame>
  {
    var table := codecs.readCsv(text);
    if table.None? then Raised(CodecError) else Ok(table.value)
  }

  /** The frame the client sends back for a job: the predictions with the
      identifiers attached, or the exception raised on the way. */
  function PredictionsFor(callback: Option<Callback>, train: DataFrame, predict: DataFrame, config: Option<Json>): (r: Result<DataFrame>)
    ensures r.Ok? ==> callback.Some? && HasColumn(train, RecordId)
    ensures r != Raised(IndexError)
    ensures r == Raised(AssertionError) ==> callback.None?
  {
    var prepared := PrepareDatasets(train, predict);
    if !prepared.Ok? then Fail(prepared)
    else if callback.None? then Raised(AssertionError)
    else
      var f := callback.value;
      var predictions := f(prepared.value.0, prepared.value.1, config);
      var attached := AttachRecordIds(predictions, prepared.value.2);
      if !attached.Ok? then Fail(attached)
      else
        RowCountsAgree(train, predict, predictions);
        if attached.value.height != prepared.value.1.height then Raised(AssertionError)
        else Ok(attached.value)
  }

  /** The work of `_process_job` on the popped `Dataset` payload: decode
      both sets, then parse both, prepare them, run the callback, attach the
      identifiers, and compress the CSV text. The text of the `Predictions`
      reply, or the exception. */
  function RunJob(codecs: Codecs, callback: Option<Callback>, dataset: Json, config: Option<Json>): (r: Result<string>)
    ensures r.Ok? ==> callback.Some?
    ensures r != Raised(IndexError)
    ensures r == Raised(AssertionError) ==> callback.None?
    ensures !dataset.JObj? ==> r == Raised(TypeError)
    ensures var trainText := DatasetText(codecs, dataset, "train");
      var predictText := DatasetText(codecs, dataset, "predict");
      && (!trainText.Ok? ==> r == Fail(trainText))
      && (trainText.Ok? && !predictText.Ok? ==> r == Fail(predictText))
      && (trainText.Ok? && predictText.Ok? ==>
            var train := ParseTable(codecs, trainText.value);
            var predict := ParseTable(codecs, predictText.value);
            && (!(train.Ok? && predict.Ok?) ==> r == Raised(CodecError))
            && (train.Ok? && predict.Ok? ==>
                  var predictions := PredictionsFor(callback, train.value, predict.value, config);
                  && (!predictions.Ok? ==> r == Fail(predictions))
                  && (predictions.Ok? ==> r == Ok(codecs.compressAndEncode(codecs.toCsv(predictions.value))))))
  {
    var trainText := DatasetText(codecs, dataset, "train");
    if !trainText.Ok? then Fail(trainText)
    else
      var predictText := DatasetText(codecs, dataset, "predict");
      if !predictText.Ok? then Fail(predictText)
      else
        var train := ParseTable(codecs, trainText.value);
        if !train.Ok? then Fail(train)
        else
          var predict := ParseTable(codecs, predictText.value);
          if !predict.Ok? then Fail(predict)
          else
            var predictions := PredictionsFor(callback, train.value, predict.value, config);
            if !predictions.Ok? then Fail(predictions)
            else Ok(codecs.compressAndEncode(codecs.toCsv(predictions.value)))
  }

  /** The reply to a job whose prediction set has one identifier column and
      whose callback returns columns with distinct names and no identifiers:
      the CSV of the predictions with the identifiers as first column. */
  lemma JobRepliesWithIdsFirst(codecs: Codecs, f: Callback, train: DataFrame, predict: DataFrame, config: Option<Json>, k: nat)
    requires HasColumn(train, RecordId)
    requires k < |predict.columns| && predict.columns[k].name == RecordId
    requires forall i :: 0 <= i < |predict.columns| && i != k ==> predict.columns[i].name != RecordId
    requires var out := f(Drop(train, RecordId), Drop(predict, RecordId), config);
      Distinct(Names(out.columns)) && !HasColumn(out, RecordId) && out.height == predict.height
    ensures var out := f(Drop(train, RecordId), Drop(predict, RecordId), config);
      PredictionsFor(Some(f), train, predict, config)
        == Ok(Table([Column(RecordId, predict.columns[k].values)] + out.columns, predict.height))
  {
    PreparedIdsAreThePredictColumn(train, predict, k);
    var out := f(Drop(train, RecordId), Drop(predict, RecordId), config);
    RecordIdFirst(out, predict.columns[k].values);
  }

  // ---------------------------------------------------------------------
  // The client

  class Sybl {
    var email: Option<string>
    var modelName: Option<string>
    /** `None` is `JNull`; the stored values are whatever the store held. */
    var accessToken: Json
    var modelId: Json
    var state: State
    var callback: Option<Callback>
    var config: JobConfig
    var recvJobConfig: Option<Json>
    var stack: seq<Msg>
    /** The messages sent, oldest first. */
    var sent: seq<Json>
    const codecs: Codecs

    /** The stack holds exactly the message the state is about to handle,
        and a session past authentication has a callback. */
    predicate Synchronized()
      reads this
    {
      && (state == Authenticating || state == Heartbeat ==> stack == [])
      && (state == ReadJob ==> |stack| == 1 && "JobConfig" in stack[0])
      && (state == Processing ==> |stack| == 1 && "Dataset" in stack[0] && "JobConfig" !in stack[0])
      && (state != Authenticating ==> callback.Some?)
    }

    /** `__init__` once the credentials are known (`None` for absent). */
    constructor (email: Option<string>, modelName: Option<string>, accessToken: Json, modelId: Json,
                 callback: Option<Callback>, jobConfig: JobConfig, codecs: Codecs)
      ensures this.email == email && this.modelName == modelName
      ensures this.accessToken == accessToken && this.modelId == modelId
      ensures this.callback == callback && config == jobConfig && this.codecs == codecs
      ensures state == Authenticating && recvJobConfig == None && stack == [] && sent == []
      ensures Synchronized()
    {
      this.email := email;
      this.modelName := modelName;
      this.accessToken := accessToken;
      this.modelId := modelId;
      this.callback := callback;
      config := jobConfig;
      this.codecs := codecs;
      state := Authenticating;
      recvJobConfig := None;
      stack := [];
      sent := [];
    }

    /** `Sybl(email, model_name, callback, job_config)`: when both an email
        and a model name are given (non-empty), the credentials are loaded
        from the store, and a failure to load them is raised; then a truthy
        callback is registered, which raises TypeError when it cannot be
        called, and a falsy one leaves the session without a callback. */
    static method Open(email: Option<string>, modelName: Option<string>, callback: CallbackArg,
                       jobConfig: JobConfig, codecs: Codecs, store: StoreFile) returns (r: Result<Sybl>)
      ensures var named := email.Some? && email.value != "" && modelName.Some? && modelName.value != "";
        var loaded := if named then Load(store, email.value, modelName.value) else Ok((JNull, JNull));
        && (r.Ok? <==> loaded.Ok? && !callback.NotCallable?)
        && (!loaded.Ok? ==> r == Fail(loaded))
        && (loaded.Ok? && callback.NotCallable? ==> r == Raised(TypeError))
        && (r.Ok? ==>
             fresh(r.value) && r.value.state == Authenticating && r.value.Synchronized() &&
             r.value.email == email && r.value.modelName == modelName &&
             r.value.callback == (if callback.Function? then Some(callback.f) else None) &&
             r.value.config == jobConfig && r.value.codecs == codecs &&
             (r.value.accessToken, r.value.modelId) == loaded.value &&
             r.value.sent == [] && r.value.recvJobConfig == None)
    {
      var token, id := JNull, JNull;
      if email.Some? && email.value != "" && modelName.Some? && modelName.value != "" {
        var loaded := Load(store, email.value, modelName.value);
        if !loaded.Ok? {
          return Fail(loaded);
        }
        token, id := loaded.value.0, loaded.value.1;
      }
      var client := new Sybl(email, modelName, token, id, None, jobConfig, codecs);
      if !callback.Falsy? {
        var st := client.RegisterCallback(callback);
        if !st.Ok? {
          return Fail(st);
        }
      }
      return Ok(client);
    }

    /** `register_callback`: only a function is accepted (TypeError). */
    method RegisterCallback(f: CallbackArg) returns (st: Status)
      modifies this`callback
      ensures !f.Function? ==> st == Raised(TypeError) && callback == old(callback)
      ensures f.Function? ==> st == Done && callback == Some(f.f)
      ensures old(Synchronized()) ==> Synchronized()
    {
      if !f.Function? {
        return Raised(TypeError);
      }
      callback := Some(f.f);
      return Done;
    }

    /** `load_config`: `null` stands for a value that is not a `JobConfig`. */
    method LoadConfig(c: JobConfig?) returns (st: Status)
      modifies this`config
      ensures c == null ==> st == Raised(AttributeError) && config == old(config)
      ensures c != null ==> st == Done && config == c
      ensures state == old(state) && stack == old(stack) && sent == old(sent) && callback == old(callback)
    {
      if c == null {
        return Raised(AttributeError);
      }
      config := c;
      return Done;
    }

    /** `load_model`: the credentials stored for the pair replace the
        current ones; on a failed load nothing changes. */
    method LoadModel(email: string, modelName: string, store: StoreFile) returns (st: Status)
      modifies this`accessToken, this`modelId, this`email, this`modelName
      ensures var loaded := Load(store, email, modelName);
        if loaded.Ok? then
          st == Done && (accessToken, modelId) == loaded.value &&
          this.email == Some(email) && this.modelName == Some(modelName)
        else
          st == Fail(loaded) && accessToken == old(accessToken) && modelId == old(modelId) &&
          this.email == old(this.email) && this.modelName == old(this.modelName)
      ensures state == old(state) && stack == old(stack) && sent == old(sent) && callback == old(callback)
    {
      var loaded := Load(store, email, modelName);
      if !loaded.Ok? {
        return Fail(loaded);
      }
      accessToken, modelId := loaded.value.0, loaded.value.1;
      this.email, this.modelName := Some(email), Some(modelName);
      return Done;
    }

    /** `_is_authenticated`: sends the credentials once, then accepts exactly
        the reply whose `message` is "Authentication successful"; a reply
        without `message` is a refusal, one that cannot be subscripted by a
        string raises TypeError. */
    method IsAuthenticated(reply: Result<Json>) returns (r: Result<bool>)
      modifies this`sent
      ensures sent == old(sent) + [AccessTokenMessage(modelId, accessToken)]
      ensures !reply.Ok? ==> r == Fail(reply)
      ensures reply.Ok? && reply.value.JObj? ==>
        r == Ok("message" in reply.value.fields && reply.value.fields["message"] == JStr(AuthenticationSuccessful))
      ensures reply.Ok? && !reply.value.JObj? ==> r == Raised(TypeError)
      ensures state == old(state) && stack == old(stack) && callback == old(callback)
      ensures accessToken == old(accessToken) && modelId == old(modelId) && recvJobConfig == old(recvJobConfig)
    {
      sent := sent + [AccessTokenMessage(modelId, accessToken)];
      if !reply.Ok? {
        return Fail(reply);
      }
      var message := Index(reply.value, "message");
      if message == Raised(KeyError) {
        return Ok(false);
      }
      if !message.Ok? {
        return Fail(message);
      }
      return Ok(message.value == JStr(AuthenticationSuccessful));
    }

    /** `_message_control`: one heartbeat step on the message read. `Alive`
        is echoed; otherwise `JobConfig`, then `Dataset`, is pushed and the
        state moves on; any other message is ignored. */
    method MessageControl(response: Json) returns (st: Status)
      modifies this`state, this`stack, this`sent
      ensures !response.JObj? ==> st == Raised(AttributeError) && state == old(state) && stack == old(stack) && sent == old(sent)
      ensures response.JObj? ==> st == Done
      ensures response.JObj? && "Alive" in response.fields ==>
        state == Heartbeat && sent == old(sent) + [response] && stack == old(stack)
      ensures response.JObj? && "Alive" !in response.fields && "JobConfig" in response.fields ==>
        state == ReadJob && stack == old(stack) + [response.fields] && sent == old(sent)
      ensures response.JObj? && "Alive" !in response.fields && "JobConfig" !in response.fields && "Dataset" in response.fields ==>
        state == Processing && stack == old(stack) + [response.fields] && sent == old(sent)
      ensures response.JObj? && "Alive" !in response.fields && "JobConfig" !in response.fields && "Dataset" !in response.fields ==>
        state == old(state) && stack == old(stack) && sent == old(sent)
      ensures callback == old(callback) && recvJobConfig == old(recvJobConfig) && config == old(config)
      ensures accessToken == old(accessToken) && modelId == old(modelId)
      ensures old(Synchronized()) && old(state) == Heartbeat ==> Synchronized()
    {
      if !response.JObj? {
        return Raised(AttributeError);
      }
      if "Alive" in response.fields {
        state := Heartbeat;
        sent := sent + [response];
      } else if "JobConfig" in response.fields {
        state := ReadJob;
        stack := stack + [response.fields];
      } else if "Dataset" in response.fields {
        state := Processing;
        stack := stack + [response.fields];
      }
      return Done;
    }

    /** `_process_job_config`: pops the top message and, when it holds a
        `JobConfig`, replies with the decision `compare` takes on it,
        remembering the configuration when it is accepted. The state is
        `Heartbeat` afterwards unless `compare` raised. */
    method ProcessJobConfig() returns (st: Status)
      modifies this`state, this`stack, this`sent, this`recvJobConfig
      ensures stack == if old(stack) == [] then [] else old(stack)[..|old(stack)| - 1]
      ensures st.Ok? ==> state == Heartbeat
      ensures old(stack) == [] ==> st == Done && sent == old(sent) && recvJobConfig == old(recvJobConfig)
      ensures old(stack) != [] && "JobConfig" !in old(stack)[|old(stack)| - 1] ==>
        st == Done && sent == old(sent) && recvJobConfig == old(recvJobConfig)
      ensures old(stack) != [] && "JobConfig" in old(stack)[|old(stack)| - 1] ==>
        var offer := old(stack)[|old(stack)| - 1]["JobConfig"];
        var decision := config.Compare(offer);
        if decision.Ok? then
          st == Done && sent == old(sent) + [ConfigResponse(decision.value)] &&
          recvJobConfig == (if decision.value then Some(offer) else old(recvJobConfig))
        else
          st == Fail(decision) && state == old(state) && sent == old(sent) && recvJobConfig == old(recvJobConfig)
      ensures callback == old(callback) && config == old(config)
      ensures accessToken == old(accessToken) && modelId == old(modelId)
      ensures old(Synchronized()) && old(state) == ReadJob && st.Ok? ==> Synchronized()
    {
      if stack == [] {
        state := Heartbeat;
        return Done;
      }
      var jobConfig := stack[|stack| - 1];
      stack := stack[..|stack| - 1];
      if "JobConfig" !in jobConfig {
        state := Heartbeat;
        return Done;
      }
      var decision := config.Compare(jobConfig["JobConfig"]);
      if !decision.Ok? {
        return Fail(decision);
      }
      sent := sent + [ConfigResponse(decision.value)];
      if decision.value {
        recvJobConfig := Some(jobConfig["JobConfig"]);
      }
      state := Heartbeat;
      return Done;
    }

    /** `_process_job`: pops the top message, asserts it is a `Dataset`,
        runs the job and sends its `Predictions`. */
    method ProcessJob() returns (st: Status)
      modifies this`state, this`stack, this`sent
      ensures stack == if old(stack) == [] then [] else old(stack)[..|old(stack)| - 1]
      ensures old(stack) == [] ==> st == Raised(IndexError) && sent == old(sent) && state == old(state)
      ensures old(stack) != [] && "Dataset" !in old(stack)[|old(stack)| - 1] ==>
        st == Raised(AssertionError) && sent == old(sent) && state == old(state)
      ensures old(stack) != [] && "Dataset" in old(stack)[|old(stack)| - 1] ==>
        var reply := RunJob(codecs, callback, old(stack)[|old(stack)| - 1]["Dataset"], recvJobConfig);
        if reply.Ok? then
          st == Done && state == Heartbeat && sent == old(sent) + [Single("Predictions", JStr(reply.value))]
        else
          st == Fail(reply) && state == old(state) && sent == old(sent)
      ensures callback == old(callback) && config == old(config) && recvJobConfig == old(recvJobConfig)
      ensures accessToken == old(accessToken) && modelId == old(modelId)
      ensures old(Synchronized()) && old(state) == Processing ==>
        st != Raised(IndexError) && st != Raised(AssertionError) && (st.Ok? ==> Synchronized())
    {
      if stack == [] {
        return Raised(IndexError);
      }
      var data := stack[|stack| - 1];
      stack := stack[..|stack| - 1];
      if "Dataset" !in data {
        return Raised(AssertionError);
      }
      var reply := RunJob(codecs, callback, data["Dataset"], recvJobConfig);
      if !reply.Ok? {
        return Fail(reply);
      }
      sent := sent + [Single("Predictions", JStr(reply.value))];
      state := Heartbeat;
      return Done;
    }

    /** `_begin_state_machine`, run on the messages the server sends until
        it closes the connection (a read past the last message raises
        `struct.error`). The loop never ends normally: it stops only by an
        exception or an exit. */
    method Serve(inbox: seq<Result<Json>>) returns (st: Status)
      requires Synchronized() && state != Authenticating
      modifies this`state, this`stack, this`sent, this`recvJobConfig
      ensures !st.Ok?
      ensures |sent| >= |old(sent)| && sent[..|old(sent)|] == old(sent)
      ensures callback == old(callback) && config == old(config)
      ensures accessToken == old(accessToken) && modelId == old(modelId)
      ensures state != Authenticating
      ensures AllAlive(inbox) && old(state) == Heartbeat ==> st == Raised(StructError) && sent == old(sent) + Echoes(inbox)
    {
      var i := 0;
      ghost var allAlive := AllAlive(inbox);
      while true
        invariant 0 <= i <= |inbox|
        invariant Synchronized() && state != Authenticating
        invariant |sent| >= |old(sent)| && sent[..|old(sent)|] == old(sent)
        invariant callback == old(callback) && config == old(config)
        invariant accessToken == old(accessToken) && modelId == old(modelId)
        invariant allAlive && old(state) == Heartbeat ==> state == Heartbeat && sent == old(sent) + Echoes(inbox[..i])
        decreases |inbox| - i, if state == Heartbeat then 0 else 1
      {
        if state == Heartbeat {
          if i == |inbox| {
            assert inbox[..i] == inbox;
            return Raised(StructError);
          }
          var response := inbox[i];
          if !response.Ok? {
            return Fail(response);
          }
          st := MessageControl(response.value);
          if !st.Ok? {
            return st;
          }
          if allAlive && old(state) == Heartbeat {
            assert inbox[..i + 1] == inbox[..i] + [response];
            EchoesAppend(inbox[..i], response);
          }
          i := i + 1;
        } else if state == ReadJob {
          st := ProcessJobConfig();
          if !st.Ok? {
            return st;
          }
        } else {
          st := ProcessJob();
          if !st.Ok? {
            return st;
          }
        }
      }
    }

    /** `connect`: a callback must be registered (AttributeError), the
        credentials must be loaded and non-empty (AttributeError), and the
        server must accept them. The first message read is the reply to the
        credentials: a failed read is raised, a reply that is not a
        dictionary raises TypeError, and any other reply but the success
        message is a refusal (PermissionError); in all these cases the state
        stays `Authenticating` and only the credentials were sent. On
        acceptance the state machine runs on the remaining messages. */
    method Connect(inbox: seq<Result<Json>>) returns (st: Status)
      requires Synchronized() && state == Authenticating
      modifies this`state, this`stack, this`sent, this`recvJobConfig
      ensures !st.Ok?
      ensures callback == old(callback) && accessToken == old(accessToken) && modelId == old(modelId)
      ensures callback.None? ==>
        st == Raised(AttributeError) && state == Authenticating && sent == old(sent) &&
        stack == old(stack) && recvJobConfig == old(recvJobConfig)
      ensures callback.Some? && !(Truthy(accessToken) && Truthy(modelId)) ==>
        st == Raised(AttributeError) && state == Authenticating && sent == old(sent) &&
        stack == old(stack) && recvJobConfig == old(recvJobConfig)
      ensures var reply := if inbox == [] then Raised(StructError) else inbox[0];
        callback.Some? && Truthy(accessToken) && Truthy(modelId) ==>
          && (!reply.Ok? ==> st == Fail(reply))
          && (reply.Ok? && !reply.value.JObj? ==> st == Raised(TypeError))
          && (reply.Ok? && reply.value.JObj? && !Accepts(reply) ==> st == Raised(PermissionError))
          && (!Accepts(reply) ==>
                state == Authenticating && sent == old(sent) + [AccessTokenMessage(modelId, accessToken)] &&
                stack == old(stack) && recvJobConfig == old(recvJobConfig))
          && (Accepts(reply) ==>
                state != Authenticating && |sent| > |old(sent)| &&
                sent[..|old(sent)| + 1] == old(sent) + [AccessTokenMessage(modelId, accessToken)])
          && (Accepts(reply) && AllAlive(inbox[1..]) ==>
                st == Raised(StructError) &&
                sent == old(sent) + [AccessTokenMessage(modelId, accessToken)] + Echoes(inbox[1..]))
    {
      if callback.None? {
        return Raised(AttributeError);
      }
      if !Truthy(accessToken) || !Truthy(modelId) {
        return Raised(AttributeError);
      }
      var authenticated := IsAuthenticated(if inbox == [] then Raised(StructError) else inbox[0]);
      if !authenticated.Ok? {
        return Fail(authenticated);
      }
      if !authenticated.value {
        return Raised(PermissionError);
      }
      state := Heartbeat;
      st := Serve(inbox[1..]);
    }
  }

  /** Every message is a heartbeat. */
  predicate AllAlive(inbox: seq<Result<Json>>)
  {
    forall k :: 0 <= k < |inbox| ==> inbox[k].Ok? && inbox[k].value.JObj? && "Alive" in inbox[k].value.fields
  }

  /** The reply by which the server accepts the credentials. */
  predicate Accepts(reply: Result<Json>)
  {
    reply.Ok? && reply.value.JObj? && "message" in reply.value.fields
    && reply.value.fields["message"] == JStr(AuthenticationSuccessful)
  }

  /** The replies to a run of `Alive` messages: each one echoed. */
  function Echoes(inbox: seq<Result<Json>>): (replies: seq<Json>)
    requires forall k :: 0 <= k < |inbox| ==> inbox[k].Ok?
    ensures |replies| == |inbox| && forall k :: 0 <= k < |inbox| ==> replies[k] == inbox[k].value
  {
    seq(|inbox|, k requires 0 <= k < |inbox| => inbox[k].value)
  }

  lemma EchoesAppend(inbox: seq<Result<Json>>, last: Result<Json>)
    requires (forall k :: 0 <= k < |inbox| ==> inbox[k].Ok?) && last.Ok?
    ensures Echoes(inbox + [last]) == Echoes(inbox) + [last.value]
  {
  }
}

=== FILE: credentials.dfy ===
/** The credential store `sybl.json` under the XDG data directory: a JSON
    object mapping `"{email}.{model_name}"` to `{"model_id", "access_token"}`.
    Writers are `save_access_tokens` in `sybl/authenticate.py` and in the
    legacy `authenticate.py`; the reader is `load_access_token` in
    `sybl/client/sybl_client.py`. */
module Credentials {
  import opened Outcomes
  import opened Json

  /** The file as the code finds it: absent, empty, not JSON, or holding a
      decoded document (of any JSON shape). */
  datatype StoreFile = Missing | Blank | Garbled | Holds(doc: Json)

  /** The key a model's credentials are stored under. */
  function ModelKey(email: string, modelName: string): (k: string)
    ensures |k| == |email| + 1 + |modelName|
    ensures k[..|email|] == email && k[|email|] == '.' && k[|email| + 1..] == modelName
  {
    email + "." + modelName
  }

  /** The stored record of one model. `None` fields are stored as `null`. */
  function Entry(modelId: Json, accessToken: Json): (e: Json)
    ensures e.JObj? && e.fields.Keys == {"model_id", "access_token"}
    ensures e.fields["model_id"] == modelId && e.fields["access_token"] == accessToken
  {
    JObj(map["model_id" := modelId, "access_token" := accessToken])
  }

  /** The read-merge of `sybl/authenticate.py`: the file has been created if
      it was missing, so a missing or empty file reads as `{}`; text that is
      not JSON raises ValueError; assigning a string key into a document that
      is not an object raises TypeError. The result is the document written
      back. */
  function Merge(store: StoreFile, key: string, entry: Json): (r: Result<Json>)
    ensures r.Ok? <==> !store.Garbled? && !(store.Holds? && !store.doc.JObj?)
    ensures store.Garbled? ==> r == Raised(ValueError)
    ensures store.Holds? && !store.doc.JObj? ==> r == Raised(TypeError)
    ensures (store.Missing? || store.Blank?) ==> r == Ok(Single(key, entry))
    ensures store.Holds? && store.doc.JObj? ==>
      r.value.JObj? && r.value.fields.Keys == store.doc.fields.Keys + {key} && r.value.fields[key] == entry &&
      forall k :: k in store.doc.fields && k != key ==> r.value.fields[k] == store.doc.fields[k]
  {
    match store
    case Missing => Ok(JObj(map[key := entry]))
    case Blank => Ok(JObj(map[key := entry]))
    case Garbled => Raised(ValueError)
    case Holds(doc) =>
      if doc.JObj? then Ok(JObj(doc.fields[key := entry])) else Raised(TypeError)
  }

  /** The legacy writer opens the file without creating it first. */
  function LegacyMerge(store: StoreFile, key: string, entry: Json): (r: Result<Json>)
    ensures store.Missing? ==> r == Raised(FileNotFoundError)
    ensures !store.Missing? ==> r == Merge(store, key, entry)
  {
    if store.Missing? then Raised(FileNotFoundError) else Merge(store, key, entry)
  }

  /** `load_access_token`: the pair `(access_token, model_id)` stored under
      the key. A missing file raises FileNotFoundError; an empty or garbled
      file fails to parse (ValueError); a missing key, or a record without
      one of its two fields, is reported as ValueError; a document or record
      that is not an object cannot be subscripted by a string (TypeError). */
  function Load(store: StoreFile, email: string, modelName: string): (r: Result<(Json, Json)>)
    ensures store.Missing? <==> r == Raised(FileNotFoundError)
    ensures store.Blank? || store.Garbled? ==> r == Raised(ValueError)
    ensures store.Holds? && store.doc.JObj? && ModelKey(email, modelName) !in store.doc.fields
      ==> r == Raised(ValueError)
    ensures store.Holds? && !store.doc.JObj? ==> r == Raised(TypeError)
    ensures store.Holds? && store.doc.JObj? && ModelKey(email, modelName) in store.doc.fields ==>
      var record := store.doc.fields[ModelKey(email, modelName)];
      (!record.JObj? ==> r == Raised(TypeError)) &&
      (record.JObj? && !(record.fields.Keys >= {"access_token", "model_id"}) ==> r == Raised(ValueError)) &&
      (record.JObj? && record.fields.Keys >= {"access_token", "model_id"} ==>
        r == Ok((record.fields["access_token"], record.fields["model_id"])))
    ensures r.Ok? ==>
      (store.Holds? && store.doc.JObj? && ModelKey(email, modelName) in store.doc.fields &&
       var record := store.doc.fields[ModelKey(email, modelName)];
       record.JObj? && record.fields.Keys >= {"access_token", "model_id"} &&
       r.value == (record.fields["access_token"], record.fields["model_id"]))
  {
    match store
    case Missing => Raised(FileNotFoundError)
    case Blank => Raised(ValueError)
    case Garbled => Raised(ValueError)
    case Holds(doc) =>
      var record := Index(doc, ModelKey(email, modelName));
      if record == Raised(KeyError) then Raised(ValueError)
      else if !record.Ok? then Fail(record)
      else if !record.value.JObj? then Raised(TypeError)
      else if "access_token" !in record.value.fields || "model_id" !in record.value.fields then Raised(ValueError)
      else Ok((record.value.fields["access_token"], record.value.fields["model_id"]))
  }

  /** Loading what was just saved gives back the pair that was saved, from
      any store the save accepts. */
  lemma LoadAfterMerge(store: StoreFile, email: string, modelName: string, modelId: Json, accessToken: Json)
    requires Merge(store, ModelKey(email, modelName), Entry(modelId, accessToken)).Ok?
    ensures Load(Holds(Merge(store, ModelKey(email, modelName), Entry(modelId, accessToken)).value), email, modelName)
      == Ok((accessToken, modelId))
  {
    var key := ModelKey(email, modelName);
    var doc := Merge(store, key, Entry(modelId, accessToken)).value;
    assert doc.JObj? && key in doc.fields && doc.fields[key] == Entry(modelId, accessToken);
  }

  /** The key does not tell the email and the model name apart: two different
      registrations can share a key, and saving the second overwrites the
      first. */
  lemma ModelKeyAmbiguous()
    ensures exists e1, m1, e2, m2 :: (e1, m1) != (e2, m2) && ModelKey(e1, m1) == ModelKey(e2, m2)
  {
    assert ("a", "b.c") != ("a.b", "c");
    assert ModelKey("a", "b.c") == ModelKey("a.b", "c");
  }
}

=== FILE: datasets.dfy ===
/** The table handling of `sybl/client/sybl_client.py`: `prepare_datasets`
    and the re-attachment of record identifiers in `_process_job`. A pandas
    frame is kept to its shape: a sequence of named columns (names may repeat,
    as in pandas) of a common height; cell contents are opaque strings. */
module Datasets {
  import opened Outcomes

  /** The identifier column the service adds to every dataset. */
  const RecordId: string := "record_id"

  datatype Column = Column(name: string, values: seq<string>)

  datatype Table = Table(columns: seq<Column>, height: nat)

  /** Every column has one value per row. */
  predicate Rectangular(t: Table)
  {
    forall i :: 0 <= i < |t.columns| ==> |t.columns[i].values| == t.height
  }

  /** A pandas data frame. */
  type DataFrame = t: Table | Rectangular(t) witness Table([], 0)

  /** `frame.columns.tolist()`. */
  function Names(cols: seq<Column>): (names: seq<string>)
    ensures |names| == |cols| && forall i :: 0 <= i < |cols| ==> names[i] == cols[i].name
  {
    seq(|cols|, i requires 0 <= i < |cols| => cols[i].name)
  }

  predicate HasColumn(t: Table, name: string)
  {
    name in Names(t.columns)
  }

  predicate Distinct(names: seq<string>)
  {
    forall i, j :: 0 <= i < j < |names| ==> names[i] != names[j]
  }

  /** The columns carrying a name, in order (what `frame[name]` selects). */
  function Named(cols: seq<Column>, name: string): (r: seq<Column>)
    ensures forall c :: c in r ==> c in cols && c.name == name
    ensures forall c :: c in cols && c.name == name ==> c in r
    ensures |r| == 0 <==> name !in Names(cols)
  {
    if cols == [] then []
    else (if cols[0].name == name then [cols[0]] else []) + Named(cols[1..], name)
  }

  /** The columns not carrying a name, in order (`drop([name], axis=1)`). */
  function Without(cols: seq<Column>, name: string): (r: seq<Column>)
    ensures forall c :: c in r ==> c in cols && c.name != name
    ensures forall c :: c in cols && c.name != name ==> c in r
    ensures |r| <= |cols|
  {
    if cols == [] then []
    else (if cols[0].name == name then [] else [cols[0]]) + Without(cols[1..], name)
  }

  /** Dropping keeps the order of the columns that stay: it distributes over
      concatenation, so each remaining column keeps its place relative to
      the others. */
  lemma {:induction false} WithoutDistributes(a: seq<Column>, b: seq<Column>, name: string)
    ensures Without(a + b, name) == Without(a, name) + Without(b, name)
  {
    if a == [] {
      assert a + b == b;
    } else {
      assert (a + b)[0] == a[0];
      assert (a + b)[1..] == a[1..] + b;
      WithoutDistributes(a[1..], b, name);
    }
  }

  /** `frame.drop([name], axis=1)`: every column of that name goes, the rows
      stay. */
  function Drop(t: DataFrame, name: string): (r: DataFrame)
    ensures r.height == t.height && !HasColumn(r, name)
    ensures r.columns == Without(t.columns, name)
  {
    Table(Without(t.columns, name), t.height)
  }

  /** `frame[name].tolist()`: KeyError when no column has the name; with
      several, `frame[name]` is a frame, which has no `tolist`
      (AttributeError). */
  function ColumnValues(t: DataFrame, name: string): (r: Result<seq<string>>)
    ensures !HasColumn(t, name) <==> r == Raised(KeyError)
    ensures r.Ok? ==> |r.value| == t.height && Column(name, r.value) in t.columns
    ensures r.Ok? || r == Raised(KeyError) || r == Raised(AttributeError)
    ensures |Named(t.columns, name)| == 1 ==> r == Ok(Named(t.columns, name)[0].values)
    ensures |Named(t.columns, name)| > 1 ==> r == Raised(AttributeError)
  {
    var matching := Named(t.columns, name);
    if |matching| == 0 then Raised(KeyError)
    else if |matching| == 1 then Ok(matching[0].values)
    else Raised(AttributeError)
  }

  /** The values of the only column carrying a name are what `tolist`
      gives back. */
  lemma ColumnValuesOfOnlyColumn(t: DataFrame, name: string, k: nat)
    requires k < |t.columns| && t.columns[k].name == name
    requires forall i :: 0 <= i < |t.columns| && i != k ==> t.columns[i].name != name
    ensures ColumnValues(t, name) == Ok(t.columns[k].values)
  {
    NamedOnce(t.columns, name, k);
  }

  /** Two columns carrying the name make `tolist` raise AttributeError. */
  lemma ColumnValuesOfSeveralColumns(t: DataFrame, name: string, i: nat, j: nat)
    requires i < j < |t.columns| && t.columns[i].name == name && t.columns[j].name == name
    ensures ColumnValues(t, name) == Raised(AttributeError)
  {
    NamedTwice(t.columns, name, i, j);
  }

  /** Two columns carrying a name are both selected by it. */
  lemma {:induction false} NamedTwice(cols: seq<Column>, name: string, i: nat, j: nat)
    requires i < j < |cols| && cols[i].name == name && cols[j].name == name
    ensures |Named(cols, name)| >= 2
  {
    if i == 0 {
      assert cols[1..][j - 1] == cols[j];
      assert Named(cols[1..], name) != [] by {
        assert Names(cols[1..])[j - 1] == name;
      }
    } else {
      NamedTwice(cols[1..], name, i - 1, j - 1);
    }
  }

  /** `prepare_datasets`: a training set without identifiers raises
      AttributeError; otherwise the prediction set's identifiers are read
      (KeyError when it has none) and both sets lose the column. */
  function PrepareDatasets(train: DataFrame, predict: DataFrame): (r: Result<(DataFrame, DataFrame, seq<string>)>)
    ensures r == Raised(AttributeError) <==> !HasColumn(train, RecordId) || ColumnValues(predict, RecordId) == Raised(AttributeError)
    ensures HasColumn(train, RecordId) && !HasColumn(predict, RecordId) ==> r == Raised(KeyError)
    ensures r.Ok? ==>
      var (train', predict', ids) := r.value;
      !HasColumn(train', RecordId) && !HasColumn(predict', RecordId) &&
      train'.columns == Without(train.columns, RecordId) && train'.height == train.height &&
      predict'.columns == Without(predict.columns, RecordId) && predict'.height == predict.height &&
      |ids| == predict.height && Column(RecordId, ids) in predict.columns
  {
    if !HasColumn(train, RecordId) then Raised(AttributeError)
    else
      var ids := ColumnValues(predict, RecordId);
      if !ids.Ok? then Fail(ids)
      else Ok((Drop(train, RecordId), Drop(predict, RecordId), ids.value))
  }

  /** With a single identifier column, the identifiers handed back are that
      column, row by row. */
  lemma PreparedIdsAreThePredictColumn(train: DataFrame, predict: DataFrame, k: nat)
    requires HasColumn(train, RecordId)
    requires k < |predict.columns| && predict.columns[k].name == RecordId
    requires forall i :: 0 <= i < |predict.columns| && i != k ==> predict.columns[i].name != RecordId
    ensures PrepareDatasets(train, predict).Ok?
    ensures PrepareDatasets(train, predict).value.2 == predict.columns[k].values
  {
    NamedOnce(predict.columns, RecordId, k);
  }

  /** The cell `to_csv` writes for a missing value. */
  const Missing: string := ""

  /** A frame re-indexed to `n` rows: every column keeps its name and holds
      `n` missing cells. */
  function Reindexed(t: DataFrame, n: nat): (r: DataFrame)
    ensures r.height == n && Names(r.columns) == Names(t.columns)
    ensures forall i :: 0 <= i < |r.columns| ==> r.columns[i].values == seq(n, _ => Missing)
  {
    Table(seq(|t.columns|, i requires 0 <= i < |t.columns| => Column(t.columns[i].name, seq(n, _ => Missing))), n)
  }

  /** `frame[name] = values`: the length must match the rows (ValueError),
      except on a frame without rows, which is first re-indexed to the length
      of `values` with missing cells everywhere; an existing column of that
      name is overwritten in place, otherwise the column is added at the end. */
  function SetColumn(t: DataFrame, name: string, values: seq<string>): (r: Result<DataFrame>)
    ensures r.Ok? <==> |values| == t.height || t.height == 0
    ensures !r.Ok? ==> r == Raised(ValueError)
    ensures r.Ok? ==> r.value.height == |values| && HasColumn(r.value, name)
    ensures r.Ok? && !HasColumn(t, name) ==> Names(r.value.columns) == Names(t.columns) + [name]
    ensures r.Ok? && HasColumn(t, name) ==> Names(r.value.columns) == Names(t.columns)
    ensures r.Ok? && |values| == t.height && !HasColumn(t, name) ==>
      r.value.columns == t.columns + [Column(name, values)]
    ensures r.Ok? && |values| == t.height && HasColumn(t, name) ==>
      forall i :: 0 <= i < |t.columns| ==>
        r.value.columns[i] == if t.columns[i].name == name then Column(name, values) else t.columns[i]
    ensures r.Ok? && |values| != t.height ==>
      forall i :: 0 <= i < |r.value.columns| ==>
        r.value.columns[i].values == if r.value.columns[i].name == name then values else seq(|values|, _ => Missing)
  {
    if |values| != t.height && t.height != 0 then Raised(ValueError)
    else
      var base := if |values| == t.height then t else Reindexed(t, |values|);
      if HasColumn(base, name) then
        var cols := seq(|base.columns|, i requires 0 <= i < |base.columns| =>
                      if base.columns[i].name == name then Column(name, values) else base.columns[i]);
        assert Names(cols) == Names(base.columns);
        Ok(Table(cols, |values|))
      else
        var cols := base.columns + [Column(name, values)];
        assert Names(cols)[|cols| - 1] == name;
        Ok(Table(cols, |values|))
  }

  /** `frame[names]`: for each name in turn, every column carrying it. */
  function Select(cols: seq<Column>, names: seq<string>): seq<Column>
  {
    if names == [] then [] else Named(cols, names[0]) + Select(cols, names[1..])
  }

  /** `cols.insert(0, cols.pop()); frame = frame[cols]`: the last column name
      moves to the front (IndexError on a frame without columns). */
  function LastColumnFirst(t: DataFrame): (r: Result<DataFrame>)
    ensures r.Ok? <==> |t.columns| > 0
    ensures !r.Ok? ==> r == Raised(IndexError)
    ensures r.Ok? ==> r.value.height == t.height
  {
    if |t.columns| == 0 then Raised(IndexError)
    else
      var names := Names(t.columns);
      var order := [names[|names| - 1]] + names[..|names| - 1];
      SelectRectangular(t, order);
      Ok(Table(Select(t.columns, order), t.height))
  }

  lemma {:induction false} SelectRectangular(t: DataFrame, names: seq<string>)
    ensures Rectangular(Table(Select(t.columns, names), t.height))
  {
    if names != [] {
      SelectRectangular(t, names[1..]);
    }
  }

  /** Selecting a frame whose names are distinct by the names of some of its
      columns gives back exactly those columns. */
  lemma {:induction false} SelectDistinct(cols: seq<Column>, sub: seq<Column>)
    requires Distinct(Names(cols))
    requires forall c :: c in sub ==> c in cols
    ensures Select(cols, Names(sub)) == sub
  {
    if sub != [] {
      var x := sub[0];
      assert x in cols;
      var k :| 0 <= k < |cols| && cols[k] == x;
      NamedDistinct(cols, k);
      var names := Names(sub);
      assert names[0] == x.name;
      assert names[1..] == Names(sub[1..]);
      SelectDistinct(cols, sub[1..]);
      assert Select(cols, names) == Named(cols, names[0]) + Select(cols, names[1..]);
      assert sub == [x] + sub[1..];
    }
  }

  /** The columns of a name that only one column carries are that column. */
  lemma {:induction false} NamedOnce(cols: seq<Column>, name: string, k: nat)
    requires k < |cols| && cols[k].name == name
    requires forall i :: 0 <= i < |cols| && i != k ==> cols[i].name != name
    ensures Named(cols, name) == [cols[k]]
  {
    if k == 0 {
      assert name !in Names(cols[1..]) by {
        forall i | 0 <= i < |cols[1..]| ensures Names(cols[1..])[i] != name {
          assert cols[1..][i] == cols[i + 1];
        }
      }
    } else {
      forall i | 0 <= i < |cols[1..]| && i != k - 1 ensures cols[1..][i].name != name {
        assert cols[1..][i] == cols[i + 1];
      }
      NamedOnce(cols[1..], name, k - 1);
    }
  }

  /** Under distinct names every name is carried by one column only. */
  lemma NamedDistinct(cols: seq<Column>, k: nat)
    requires Distinct(Names(cols)) && k < |cols|
    ensures Named(cols, cols[k].name) == [cols[k]]
  {
    OthersNamedOtherwise(cols, k);
    NamedOnce(cols, cols[k].name, k);
  }

  /** Under distinct names no other column shares the name of column `k`. */
  lemma OthersNamedOtherwise(cols: seq<Column>, k: nat)
    requires Distinct(Names(cols)) && k < |cols|
    ensures forall i :: 0 <= i < |cols| && i != k ==> cols[i].name != cols[k].name
  {
    forall i | 0 <= i < |cols| && i != k ensures cols[i].name != cols[k].name {
      if i < k {
        assert Names(cols)[i] != Names(cols)[k];
      } else {
        assert Names(cols)[k] != Names(cols)[i];
      }
    }
  }

  /** The identifiers as `_process_job` attaches them to the callback's
      predictions: set as the `record_id` column, then the last column moved
      to the front. */
  function AttachRecordIds(predictions: DataFrame, ids: seq<string>): (r: Result<DataFrame>)
    ensures r.Ok? <==> |ids| == predictions.height || predictions.height == 0
    ensures !r.Ok? ==> r == Raised(ValueError)
    ensures r.Ok? ==> r.value.height == |ids|
  {
    var withIds := SetColumn(predictions, RecordId, ids);
    if !withIds.Ok? then Fail(withIds)
    else LastColumnFirst(withIds.value)
  }

  /** When the callback's predictions have distinct column names and no
      identifier column, the identifiers end up as the first column, followed
      by the predictions' own columns in their order. */
  lemma RecordIdFirst(predictions: DataFrame, ids: seq<string>)
    requires Distinct(Names(predictions.columns)) && !HasColumn(predictions, RecordId)
    requires |ids| == predictions.height
    ensures AttachRecordIds(predictions, ids) == Ok(Table([Column(RecordId, ids)] + predictions.columns, |ids|))
  {
    var cols := predictions.columns + [Column(RecordId, ids)];
    assert Distinct(Names(cols)) by {
      forall i, j | 0 <= i < j < |cols| ensures Names(cols)[i] != Names(cols)[j] {
        if j == |cols| - 1 {
          assert Names(predictions.columns)[i] == Names(cols)[i];
        } else {
          assert Names(predictions.columns)[i] != Names(predictions.columns)[j];
        }
      }
    }
    var moved := [Column(RecordId, ids)] + predictions.columns;
    var names := Names(cols);
    assert [names[|names| - 1]] + names[..|names| - 1] == Names(moved);
    SelectDistinct(cols, moved);
  }

  /** Predictions without rows take the identifiers' length: the identifiers
      come first, followed by the predictions' own columns, now holding only
      missing cells. */
  lemma EmptyPredictionsPadded(predictions: DataFrame, ids: seq<string>)
    requires Distinct(Names(predictions.columns)) && !HasColumn(predictions, RecordId)
    requires predictions.height == 0
    ensures AttachRecordIds(predictions, ids)
      == Ok(Table([Column(RecordId, ids)] + Reindexed(predictions, |ids|).columns, |ids|))
  {
    var padded := Reindexed(predictions, |ids|);
    if ids == [] {
      forall i | 0 <= i < |padded.columns| ensures padded.columns[i] == predictions.columns[i] {
        assert Names(padded.columns)[i] == Names(predictions.columns)[i];
      }
      assert padded == predictions;
    } else {
      assert SetColumn(predictions, RecordId, ids) == SetColumn(padded, RecordId, ids);
    }
    RecordIdFirst(padded, ids);
  }

  /** When the predictions already carry an identifier column in another
      place than the last, that column is overwritten where it stands and the
      column moved to the front is the predictions' last one, not the
      identifiers. */
  lemma ExistingRecordIdNotMovedFirst(predictions: DataFrame, ids: seq<string>)
    requires Distinct(Names(predictions.columns)) && |ids| == predictions.height
    requires |predictions.columns| >= 2 && predictions.columns[0].name == RecordId
    ensures var r := AttachRecordIds(predictions, ids);
      r.Ok? && r.value.columns[0] == predictions.columns[|predictions.columns| - 1]
      && r.value.columns[0].name != RecordId
  {
    var n := |predictions.columns|;
    assert Names(predictions.columns)[0] != Names(predictions.columns)[n - 1];
    var withIds := SetColumn(predictions, RecordId, ids).value;
    assert Names(withIds.columns) == Names(predictions.columns);
    NamedDistinct(withIds.columns, n - 1);
  }

  /** The row-count assertion of `_process_job` cannot fail: after the
      identifiers are attached, the predictions have as many rows as the
      prediction set the identifiers came from. */
  lemma RowCountsAgree(train: DataFrame, predict: DataFrame, predictions: DataFrame)
    requires PrepareDatasets(train, predict).Ok?
    requires AttachRecordIds(predictions, PrepareDatasets(train, predict).value.2).Ok?
    ensures AttachRecordIds(predictions, PrepareDatasets(train, predict).value.2).value.height
      == PrepareDatasets(train, predict).value.1.height
  {
  }
}

=== FILE: enrollment.dfy ===
/** Enrollment of a new model, `sybl/authenticate.py`: the client announces
    the model, answers the server's challenges by signing them with the
    user's private key, and stores the access token it is finally granted.

    The class keeps a log of the messages it sends; `Verify` is given what
    each `_read_message` returned, in order (a read past the last message
    raises `struct.error`, as reading a closed connection does). */
module Enrollment {
  import opened Outcomes
  import opened Json
  import opened Wire
  import opened Transport
  import opened Credentials

  /** The base64 and signing libraries, treated as opaque: `b64decode`
      (`None` where it raises `binascii.Error`, a ValueError), `b64encode`,
      and the RSA/SHA-256 signature of PKCS #1 v1.5 (section 8.2 of RFC 8017)
      with a PEM key (`None` where the key cannot be loaded). */
  datatype Crypto = Crypto(
    b64decode: string -> Option<seq<byte>>,
    b64encode: seq<byte> -> string,
    sign: (seq<byte>, string) -> Option<seq<byte>>)

  /** What answering a challenge depends on: the model's identity, the
      environment holding `PRIVATE_KEY`, and the libraries. */
  datatype Signer = Signer(email: string, modelName: string, env: map<string, string>, crypto: Crypto)

  const PrivateKeyVariable: string := "PRIVATE_KEY"

  /** `parse_message`: `list(message)` must have exactly one element (more
      is an explicit IndexError, none fails at `keys[0]`), and the message is
      then subscripted by it. On the documents the server sends, which are
      dictionaries, that is the one key and its value. The other JSON
      values behave as Python makes them: scalars are not iterable
      (TypeError), a one-character string cannot be subscripted by a string
      (TypeError), and a one-element list is subscripted by its element. */
  function ParseMessage(message: Json): (r: Result<(Json, Json)>)
    ensures message.JObj? && |message.fields| == 1 ==>
      r.Ok? && r.value.0.JStr? && message.fields.Keys == {r.value.0.s} && r.value.1 == message.fields[r.value.0.s]
    ensures message.JObj? && |message.fields| != 1 ==> r == Raised(IndexError)
    ensures r.Ok? && r.value.0.JStr? ==> message.JObj?
    ensures r.Ok? || r == Raised(IndexError) || r == Raised(TypeError)
  {
    match message
    case JObj(m) =>
      if |m| != 1 then Raised(IndexError)
      else
        var k := TheKey(m);
        Ok((JStr(k), m[k]))
    case JStr(s) =>
      if |s| != 1 then Raised(IndexError) else Raised(TypeError)
    case JArr(items) =>
      if |items| != 1 then Raised(IndexError)
      else
        (match items[0]
         case JInt(i) => if i == 0 || i == -1 then Ok((items[0], items[0])) else Raised(IndexError)
         case JBool(b) => if !b then Ok((items[0], items[0])) else Raised(IndexError)
         case _ => Raised(TypeError))
    case _ => Raised(TypeError)
  }

  /** `{"NewModel": {"email", "password", "model_name"}}`. */
  function NewModelMessage(email: string, password: string, modelName: string): (m: Json)
    ensures m.JObj? && m.fields.Keys == {"NewModel"}
    ensures m.fields["NewModel"].JObj? && m.fields["NewModel"].fields.Keys == {"email", "password", "model_name"}
  {
    Single("NewModel", JObj(map["email" := JStr(email), "password" := JStr(password), "model_name" := JStr(modelName)]))
  }

  /** `{"ChallengeResponse": {"email", "model_name", "response"}}`. */
  function ChallengeResponseMessage(email: string, modelName: string, response: string): (m: Json)
    ensures m.JObj? && m.fields.Keys == {"ChallengeResponse"}
    ensures m.fields["ChallengeResponse"].JObj?
    ensures m.fields["ChallengeResponse"].fields == map["email" := JStr(email), "model_name" := JStr(modelName), "response" := JStr(response)]
  {
    Single("ChallengeResponse", JObj(map["email" := JStr(email), "model_name" := JStr(modelName), "response" := JStr(response)]))
  }

  /** A `ChallengeResponse` naming this model. */
  predicate AnswersAs(signer: Signer, m: Json)
  {
    && m.JObj? && m.fields.Keys == {"ChallengeResponse"}
    && var body := m.fields["ChallengeResponse"];
    && body.JObj? && body.fields.Keys == {"email", "model_name", "response"}
    && body.fields["email"] == JStr(signer.email) && body.fields["model_name"] == JStr(signer.modelName)
    && body.fields["response"].JStr?
  }

  /** The messages `authenticate_challenge` sends for a challenge payload:
      the challenge is looked up first (its KeyError or TypeError escapes);
      without `PRIVATE_KEY` the KeyError is swallowed and nothing is sent;
      otherwise the base64 challenge is decoded (a non-string raises
      TypeError, bad base64 ValueError), signed, and the signature sent back
      in base64. */
  function Answer(signer: Signer, payload: Json): (r: Result<seq<Json>>)
    ensures !payload.JObj? ==> r == Raised(TypeError)
    ensures payload.JObj? && "challenge" !in payload.fields ==> r == Raised(KeyError)
    ensures Index(payload, "challenge").Ok? && PrivateKeyVariable !in signer.env ==> r == Ok([])
    ensures r.Ok? ==> |r.value| <= 1
    ensures r.Ok? && |r.value| == 1 ==> PrivateKeyVariable in signer.env && AnswersAs(signer, r.value[0])
    ensures var c := Index(payload, "challenge");
      c.Ok? && PrivateKeyVariable in signer.env && !c.value.JStr? ==> r == Raised(TypeError)
    ensures var c := Index(payload, "challenge");
      c.Ok? && PrivateKeyVariable in signer.env && c.value.JStr? && signer.crypto.b64decode(c.value.s).None? ==>
        r == Raised(ValueError)
    ensures var c := Index(payload, "challenge");
      c.Ok? && PrivateKeyVariable in signer.env && c.value.JStr? && signer.crypto.b64decode(c.value.s).Some? ==>
        var signature := signer.crypto.sign(signer.crypto.b64decode(c.value.s).value, signer.env[PrivateKeyVariable]);
        (signature.None? ==> r == Raised(CodecError)) &&
        (signature.Some? ==>
          r == Ok([ChallengeResponseMessage(signer.email, signer.modelName, signer.crypto.b64encode(signature.value))]))
  {
    var challenge := Index(payload, "challenge");
    if !challenge.Ok? then Fail(challenge)
    else if PrivateKeyVariable !in signer.env then Ok([])
    else if !challenge.value.JStr? then Raised(TypeError)
    else
      var decoded := signer.crypto.b64decode(challenge.value.s);
      if decoded.None? then Raised(ValueError)
      else
        var signature := signer.crypto.sign(decoded.value, signer.env[PrivateKeyVariable]);
        if signature.None? then Raised(CodecError)
        else Ok([ChallengeResponseMessage(signer.email, signer.modelName, signer.crypto.b64encode(signature.value))])
  }

  /** What `display_access` leaves in the two credential fields, and how it
      ends: `token` is taken if present, then `id`; a missing key stops the
      assignments silently; a payload that is not a dictionary raises
      TypeError before anything is assigned. */
  datatype Access = Access(outcome: Status, token: Json, id: Json)

  function TakeAccess(payload: Json, token: Json, id: Json): (a: Access)
    ensures a.outcome == (if payload.JObj? then Done else Raised(TypeError))
    ensures payload.JObj? && "token" in payload.fields ==> a.token == payload.fields["token"]
    ensures payload.JObj? && "token" in payload.fields && "id" in payload.fields ==> a.id == payload.fields["id"]
    ensures !(payload.JObj? && "token" in payload.fields) ==> a.token == token && a.id == id
    ensures !(payload.JObj? && "id" in payload.fields) ==> a.id == id
  {
    var t := Index(payload, "token");
    if t == Raised(KeyError) then Access(Done, token, id)
    else if !t.Ok? then Access(Fail(t), token, id)
    else if "id" !in payload.fields then Access(Done, t.value, id)
    else Access(Done, t.value, payload.fields["id"])
  }

  /** What one pass of the `verify` loop does with the message read: skip
      it (it does not parse as one variant, raising IndexError, or names an
      unknown variant), send the answer to a `Challenge`, end the loop with
      the payload of an `AccessToken`, or stop on any other exception. */
  datatype Step = Skip | Reply(messages: seq<Json>) | Grant(payload: Json) | Stop(outcome: Status)

  function Classify(signer: Signer, read: Result<Json>): (step: Step)
    ensures step.Stop? ==> !step.outcome.Ok?
    ensures step.Reply? ==> read.Ok? && ParseMessage(read.value).Ok? && ParseMessage(read.value).value.0 == JStr("Challenge")
    ensures step.Reply? ==> |step.messages| <= 1
    ensures read.Ok? && ParseMessage(read.value) == Raised(IndexError) ==> step == Skip
  {
    if !read.Ok? then Stop(Fail(read))
    else
      var parsed := ParseMessage(read.value);
      if parsed == Raised(IndexError) then Skip
      else if !parsed.Ok? then Stop(Fail(parsed))
      else if parsed.value.0 == JStr("Challenge") then
        var answer := Answer(signer, parsed.value.1);
        if !answer.Ok? then Stop(Fail(answer)) else Reply(answer.value)
      else if parsed.value.0 == JStr("AccessToken") then Grant(parsed.value.1)
      else Skip
  }

  /** How the enrollment loop ends. */
  datatype Ending = Granted(payload: Json) | Stopped(outcome: Status)

  /** The messages the loop sends in reply and how it ends. */
  datatype Run = Run(replies: seq<Json>, ending: Ending)

  /** The `while True` loop of `verify` on the messages read, one `Step` per
      message; a read past the last message ends it with `exhausted`. */
  function Dialogue(signer: Signer, inbox: seq<Result<Json>>, exhausted: PyError): (run: Run)
    ensures run.ending.Stopped? ==> !run.ending.outcome.Ok?
    decreases |inbox|
  {
    if inbox == [] then Run([], Stopped(Raised(exhausted)))
    else
      match Classify(signer, inbox[0])
      case Skip => Dialogue(signer, inbox[1..], exhausted)
      case Reply(messages) =>
        var rest := Dialogue(signer, inbox[1..], exhausted);
        Run(messages + rest.replies, rest.ending)
      case Grant(payload) => Run([], Granted(payload))
      case Stop(outcome) => Run([], Stopped(outcome))
  }

  /** What each message read makes the loop do, message by message. */
  function Steps(signer: Signer, inbox: seq<Result<Json>>): (steps: seq<Step>)
    ensures |steps| == |inbox|
  {
    if inbox == [] then [] else [Classify(signer, inbox[0])] + Steps(signer, inbox[1..])
  }

  /** The run of the loop over steps already classified. */
  function Conversation(steps: seq<Step>, exhausted: PyError): Run
  {
    if steps == [] then Run([], Stopped(Raised(exhausted)))
    else
      match steps[0]
      case Skip => Conversation(steps[1..], exhausted)
      case Reply(messages) =>
        var rest := Conversation(steps[1..], exhausted);
        Run(messages + rest.replies, rest.ending)
      case Grant(payload) => Run([], Granted(payload))
      case Stop(outcome) => Run([], Stopped(outcome))
  }

  /** The `k`-th step is the classification of the `k`-th message, and
      the steps after it are those of the messages after it. */
  lemma {:induction false} StepsAt(signer: Signer, inbox: seq<Result<Json>>, k: nat)
    requires k < |inbox|
    ensures Steps(signer, inbox)[k] == Classify(signer, inbox[k])
    ensures Steps(signer, inbox)[k + 1..] == Steps(signer, inbox[k + 1..])
  {
    if k > 0 {
      StepsAt(signer, inbox[1..], k - 1);
      assert inbox[1..][k..] == inbox[k + 1..];
    }
  }

  /** Classifying every message first and then running the steps is the
      loop as `Dialogue` defines it. */
  lemma {:induction false} DialogueIsConversation(signer: Signer, inbox: seq<Result<Json>>, exhausted: PyError)
    ensures Dialogue(signer, inbox, exhausted) == Conversation(Steps(signer, inbox), exhausted)
  {
    if inbox != [] {
      DialogueIsConversation(signer, inbox[1..], exhausted);
      assert Steps(signer, inbox)[1..] == Steps(signer, inbox[1..]);
    }
  }

  /** A message that does not parse as a single variant, or names a variant
      the client does not know, changes nothing: the loop goes on to the
      next one. */
  lemma SkippedMessage(signer: Signer, m: Json, inbox: seq<Result<Json>>, exhausted: PyError)
    requires ParseMessage(m) == Raised(IndexError) ||
      (ParseMessage(m).Ok? && ParseMessage(m).value.0 !in {JStr("Challenge"), JStr("AccessToken")})
    ensures Dialogue(signer, [Ok(m)] + inbox, exhausted) == Dialogue(signer, inbox, exhausted)
  {
    assert ([Ok(m)] + inbox)[1..] == inbox;
  }

  /** An `AccessToken` ends the loop: nothing after it is read. */
  lemma AccessTokenEndsLoop(signer: Signer, payload: Json, inbox: seq<Result<Json>>, exhausted: PyError)
    ensures Dialogue(signer, [Ok(Single("AccessToken", payload))] + inbox, exhausted) == Run([], Granted(payload))
  {
    var m := Single("AccessToken", payload);
    OnlyKey(m.fields, "AccessToken");
  }

  /** The enrollment the protocol intends: one challenge, answered with its
      signature, then the access token. */
  lemma ScriptedEnrollment(signer: Signer, challenge: string, grant: Json, exhausted: PyError, rest: seq<Result<Json>>)
    requires PrivateKeyVariable in signer.env
    requires signer.crypto.b64decode(challenge).Some?
    requires signer.crypto.sign(signer.crypto.b64decode(challenge).value, signer.env[PrivateKeyVariable]).Some?
    ensures var signature := signer.crypto.sign(signer.crypto.b64decode(challenge).value, signer.env[PrivateKeyVariable]).value;
      Dialogue(signer, [Ok(Single("Challenge", Single("challenge", JStr(challenge)))),
                        Ok(Single("AccessToken", grant))] + rest, exhausted)
        == Run([ChallengeResponseMessage(signer.email, signer.modelName, signer.crypto.b64encode(signature))], Granted(grant))
  {
    var first := Single("Challenge", Single("challenge", JStr(challenge)));
    OnlyKey(first.fields, "Challenge");
    var inbox := [Ok(first), Ok(Single("AccessToken", grant))] + rest;
    assert inbox[1..] == [Ok(Single("AccessToken", grant))] + rest;
    AccessTokenEndsLoop(signer, grant, rest, exhausted);
  }

  /** Without `PRIVATE_KEY` the client never answers: whatever it reads,
      the loop sends nothing. */
  lemma {:induction false} NoKeyNoReplies(signer: Signer, inbox: seq<Result<Json>>, exhausted: PyError)
    requires PrivateKeyVariable !in signer.env
    ensures Dialogue(signer, inbox, exhausted).replies == []
    decreases |inbox|
  {
    if inbox != [] && inbox[0].Ok? {
      NoKeyNoReplies(signer, inbox[1..], exhausted);
    }
  }

  /** Every message the loop sends is a `ChallengeResponse` of this model,
      and there are never more of them than `Challenge` messages read. */
  lemma {:induction false} RepliesAnswerChallenges(signer: Signer, inbox: seq<Result<Json>>, exhausted: PyError)
    ensures var replies := Dialogue(signer, inbox, exhausted).replies;
      |replies| <= Challenges(inbox) &&
      forall j :: 0 <= j < |replies| ==> AnswersAs(signer, replies[j])
    decreases |inbox|
  {
    if inbox != [] {
      RepliesAnswerChallenges(signer, inbox[1..], exhausted);
      var step := Classify(signer, inbox[0]);
      if step.Reply? {
        var rest := Dialogue(signer, inbox[1..], exhausted).replies;
        var replies := Dialogue(signer, inbox, exhausted).replies;
        assert replies == step.messages + rest;
        var parsed := ParseMessage(inbox[0].value);
        assert step.messages == Answer(signer, parsed.value.1).value;
        forall j | 0 <= j < |replies|
          ensures AnswersAs(signer, replies[j])
        {
          if j < |step.messages| {
            assert replies[j] == step.messages[0];
          } else {
            assert replies[j] == rest[j - |step.messages|];
          }
        }
      }
    }
  }

  /** The number of messages whose one key is `Challenge`. */
  function Challenges(inbox: seq<Result<Json>>): nat
  {
    if inbox == [] then 0
    else
      var isChallenge := inbox[0].Ok? && ParseMessage(inbox[0].value).Ok?
        && ParseMessage(inbox[0].value).value.0 == JStr("Challenge");
      (if isChallenge then 1 else 0) + Challenges(inbox[1..])
  }

  /** `_read_message` of `sybl/authenticate.py`: a frame read as written,
      then decoded (no server-error screen here). */
  method ReadMessage(s: Stream, codec: JsonCodec) returns (r: Result<Json>)
    modifies s
    ensures var reading := ReadSpec(old(s.input));
      s.input == reading.rest &&
      r == if !reading.result.Ok? then Fail(reading.result)
           else if codec.loads(reading.result.value.payload).None? then Raised(ValueError)
           else Ok(codec.loads(reading.result.value.payload).value)
    ensures s.output == old(s.output)
  {
    var frame := ReadFrame(s);
    if !frame.Ok? {
      return Fail(frame);
    }
    var doc := codec.loads(frame.value.payload);
    if doc.None? {
      return Raised(ValueError);
    }
    return Ok(doc.value);
  }

  /** `_send_message` of `sybl/authenticate.py`: the length prefix counts the
      UTF-8 bytes. */
  method SendMessage(s: Stream, codec: JsonCodec, message: Json) returns (st: Status)
    modifies s
    ensures var data := Serialize(codec, message);
      if !data.Ok? then st == Raised(AttributeError) && s.output == old(s.output)
      else if ByteFrame(data.value).Ok? then st == Done && s.output == old(s.output) + ByteFrame(data.value).value
      else st == Raised(OverflowError) && s.output == old(s.output)
    ensures s.input == old(s.input)
  {
    var data := Serialize(codec, message);
    if !data.Ok? {
      return Fail(data);
    }
    st := SendByteFrame(s, data.value);
  }

  /** What one send of `_send_message` puts on the wire is read back as the
      same text by the framed reader, whatever its length, when the
      intended reader is used. */
  lemma SentMessageReadBack(codec: JsonCodec, message: Json, next: seq<byte>)
    requires Serialize(codec, message).Ok? && ByteFrame(Serialize(codec, message).value).Ok?
    ensures var text := Serialize(codec, message).value;
      ReadExactSpec(ByteFrame(text).value + next) == Ok((Utf8(text), next))
  {
    ExactFrameRoundTrip(Serialize(codec, message).value, next);
  }

  class Authentication {
    const email: string
    const password: string
    const modelName: string
    const env: map<string, string>
    const crypto: Crypto
    /** `None` is `JNull`. */
    var accessToken: Json
    var modelId: Json
    var streamOpen: bool
    /** The contents of `sybl.json`. */
    var store: StoreFile
    /** The messages sent, oldest first. */
    var sent: seq<Json>

    constructor (email: string, password: string, modelName: string, env: map<string, string>,
                 crypto: Crypto, store: StoreFile)
      ensures this.email == email && this.password == password && this.modelName == modelName
      ensures this.env == env && this.crypto == crypto && this.store == store
      ensures accessToken == JNull && modelId == JNull && streamOpen && sent == []
    {
      this.email := email;
      this.password := password;
      this.modelName := modelName;
      this.env := env;
      this.crypto := crypto;
      this.store := store;
      accessToken := JNull;
      modelId := JNull;
      streamOpen := true;
      sent := [];
    }

    /** What the model answers challenges with. */
    function Identity(): Signer
    {
      Signer(email, modelName, env, crypto)
    }

    /** `authenticate_challenge`. */
    method AuthenticateChallenge(payload: Json) returns (st: Status)
      modifies this`sent
      ensures var answer := Answer(Identity(), payload);
        if answer.Ok? then st == Done && sent == old(sent) + answer.value
        else st == Fail(answer) && sent == old(sent)
    {
      var challenge := Index(payload, "challenge");
      if !challenge.Ok? {
        return Fail(challenge);
      }
      if PrivateKeyVariable !in env {
        return Done;
      }
      if !challenge.value.JStr? {
        return Raised(TypeError);
      }
      var decoded := crypto.b64decode(challenge.value.s);
      if decoded.None? {
        return Raised(ValueError);
      }
      var signature := crypto.sign(decoded.value, env[PrivateKeyVariable]);
      if signature.None? {
        return Raised(CodecError);
      }
      sent := sent + [ChallengeResponseMessage(email, modelName, crypto.b64encode(signature.value))];
      return Done;
    }

    /** `display_access`: takes what credentials the payload has and always
        closes the stream. */
    method DisplayAccess(payload: Json) returns (st: Status)
      modifies this
      ensures var a := TakeAccess(payload, old(accessToken), old(modelId));
        st == a.outcome && accessToken == a.token && modelId == a.id
      ensures !streamOpen
      ensures sent == old(sent) && store == old(store)
    {
      streamOpen := false;
      var token := Index(payload, "token");
      if token == Raised(KeyError) {
        return Done;
      }
      if !token.Ok? {
        return Fail(token);
      }
      accessToken := token.value;
      var id := Index(payload, "id");
      if !id.Ok? {
        return Done;
      }
      modelId := id.value;
      return Done;
    }

    /** `save_access_tokens`: the store gains this model's record and keeps
        every other. */
    method SaveAccessTokens() returns (st: Status)
      modifies this
      ensures var merged := Merge(old(store), ModelKey(email, modelName), Entry(modelId, accessToken));
        if merged.Ok? then st == Done && store == Holds(merged.value)
        else st == Fail(merged) && store == old(store)
      ensures accessToken == old(accessToken) && modelId == old(modelId)
      ensures sent == old(sent) && streamOpen == old(streamOpen)
    {
      var merged := Merge(store, ModelKey(email, modelName), Entry(modelId, accessToken));
      if !merged.Ok? {
        return Fail(merged);
      }
      store := Holds(merged.value);
      return Done;
    }

    /** One pass of the body of the `while True` loop of `verify` on the
        message read: the `try` block that parses it and dispatches on its
        variant, with IndexError caught. */
    method Handle(inbox: seq<Result<Json>>, i: nat) returns (step: Step)
      requires i < |inbox|
      modifies this`sent
      ensures step == Steps(Identity(), inbox)[i]
      ensures sent == old(sent) + (if step.Reply? then step.messages else [])
    {
      StepsAt(Identity(), inbox, i);
      var data := inbox[i];
      if !data.Ok? {
        return Stop(Fail(data));
      }
      var parsed := ParseMessage(data.value);
      if parsed == Raised(IndexError) {
        return Skip;
      }
      if !parsed.Ok? {
        return Stop(Fail(parsed));
      }
      var (variant, payload) := parsed.value;
      if variant == JStr("Challenge") {
        var answered := AuthenticateChallenge(payload);
        if !answered.Ok? {
          return Stop(answered);
        }
        return Reply(Answer(Identity(), payload).value);
      } else if variant == JStr("AccessToken") {
        return Grant(payload);
      }
      return Skip;
    }

    /** The `while True` loop of `verify`, up to the point where it either
        raises or reads an `AccessToken`; a read past the last message
        raises StructError. */
    method Listen(inbox: seq<Result<Json>>) returns (ending: Ending)
      modifies this`sent
      ensures sent == old(sent) + Dialogue(Identity(), inbox, StructError).replies
      ensures ending == Dialogue(Identity(), inbox, StructError).ending
    {
      DialogueIsConversation(Identity(), inbox, StructError);
      ghost var steps := Steps(Identity(), inbox);
      ghost var run := Conversation(steps, StructError);
      ghost var replies: seq<Json> := [];
      var i := 0;
      while true
        invariant 0 <= i <= |inbox| && sent == old(sent) + replies
        invariant var rest := Conversation(steps[i..], StructError);
          run == Run(replies + rest.replies, rest.ending)
        decreases |inbox| - i
      {
        if i == |inbox| {
          return Stopped(Raised(StructError));
        }
        assert steps[i..][1..] == steps[i + 1..];
        ghost var rest := Conversation(steps[i + 1..], StructError);
        var step := Handle(inbox, i);
        i := i + 1;
        match step
        case Skip =>
        case Reply(messages) =>
          assert replies + (messages + rest.replies) == (replies + messages) + rest.replies;
          replies := replies + messages;
        case Grant(payload) =>
          return Granted(payload);
        case Stop(outcome) =>
          return Stopped(outcome);
      }
    }

    /** `verify`: announces the model, then runs the loop; once granted,
        takes the credentials, closes the stream and saves them. */
    method Verify(inbox: seq<Result<Json>>) returns (st: Status)
      modifies this
      ensures var run := Dialogue(Identity(), inbox, StructError);
        sent == old(sent) + [NewModelMessage(email, password, modelName)] + run.replies &&
        (run.ending.Stopped? ==>
           st == run.ending.outcome && accessToken == old(accessToken) && modelId == old(modelId) &&
           store == old(store) && streamOpen == old(streamOpen)) &&
        (run.ending.Granted? ==>
           var a := TakeAccess(run.ending.payload, old(accessToken), old(modelId));
           var merged := Merge(old(store), ModelKey(email, modelName), Entry(a.id, a.token));
           !streamOpen && accessToken == a.token && modelId == a.id &&
           (!a.outcome.Ok? ==> st == a.outcome && store == old(store)) &&
           (a.outcome.Ok? && merged.Ok? ==> st == Done && store == Holds(merged.value)) &&
           (a.outcome.Ok? && !merged.Ok? ==> st == Fail(merged) && store == old(store)))
    {
      sent := sent + [NewModelMessage(email, password, modelName)];
      var ending := Listen(inbox);
      if ending.Stopped? {
        return ending.outcome;
      }
      st := DisplayAccess(ending.payload);
      if !st.Ok? {
        return st;
      }
      st := SaveAccessTokens();
    }
  }
}

=== FILE: job_config.dfy ===
/** `JobConfig` of `sybl/client/job_config.py`: the client's policy for
    accepting job offers, and the decision `compare` takes on an offer. */
module JobConfigs {
  import opened Outcomes
  import opened Json

  /** The keys an offer must carry before it is looked at, in the order the
      source tests them. */
  const ExpectedFields: seq<string> :=
    ["message_creation_timestamp", "prediction_cutoff_timestamp", "prediction_type"]

  /** The job types a default configuration accepts. */
  const DefaultPredictionTypes: seq<string> := ["regression", "classification"]

  /** The default limit, in minutes. */
  const DefaultTimeout: int := 10

  predicate IsUpper(c: char) { 'A' <= c <= 'Z' }

  predicate HasUpper(s: string)
  {
    exists i :: 0 <= i < |s| && IsUpper(s[i])
  }

  function LowerChar(c: char): char
  {
    if IsUpper(c) then (c as int + 32) as char else c
  }

  /** `str.lower()` restricted to ASCII letters. */
  function Lower(s: string): (t: string)
    ensures |t| == |s| && !HasUpper(t)
    ensures !HasUpper(s) ==> t == s
    ensures forall i :: 0 <= i < |s| ==> t[i] == LowerChar(s[i])
  {
    seq(|s|, i requires 0 <= i < |s| => LowerChar(s[i]))
  }

  /** The offer is a dictionary carrying every expected key. */
  predicate HasExpectedFields(offer: Json)
  {
    offer.JObj? && forall f :: f in ExpectedFields ==> f in offer.fields
  }

  /** `all(field in offer for field in fields)`: stops at the first absent
      field, and raises TypeError when the offer is not a container. */
  function AllPresent(offer: Json, fields: seq<string>): (r: Result<bool>)
    ensures offer.JObj? ==> r == Ok(forall f :: f in fields ==> f in offer.fields)
    ensures fields != [] && (offer.JNull? || offer.JBool? || offer.JInt?) ==> r == Raised(TypeError)
    ensures r.Ok? || r == Raised(TypeError)
    decreases |fields|
  {
    if fields == [] then Ok(true)
    else
      var head := Contains(offer, fields[0]);
      if !head.Ok? then Fail(head)
      else if !head.value then Ok(false)
      else AllPresent(offer, fields[1..])
  }

  /** The time the offer leaves for the job, in the seconds its timestamps
      count. */
  function Window(offer: Json): int
    requires HasExpectedFields(offer)
    requires offer.fields["message_creation_timestamp"].JInt?
    requires offer.fields["prediction_cutoff_timestamp"].JInt?
  {
    offer.fields["prediction_cutoff_timestamp"].i - offer.fields["message_creation_timestamp"].i
  }

  class JobConfig {
    var predictionTypes: seq<string>
    /** Minutes. */
    var maxTimeout: int
    var comparisonFunction: Option<Json -> bool>

    constructor (predictionTypes: seq<string> := DefaultPredictionTypes, timeout: int := DefaultTimeout)
      ensures this.predictionTypes == predictionTypes && maxTimeout == timeout
      ensures comparisonFunction == None
    {
      this.predictionTypes := predictionTypes;
      maxTimeout := timeout;
      comparisonFunction := None;
    }

    /** Installs a custom decision; nothing else changes. */
    method SetComparisonFunction(f: Json -> bool)
      modifies this
      ensures comparisonFunction == Some(f)
      ensures predictionTypes == old(predictionTypes) && maxTimeout == old(maxTimeout)
    {
      comparisonFunction := Some(f);
    }

    /** The built-in rule: both timestamps and the lower-cased type are read
        (a non-dictionary raises TypeError, a type that is not a string has no
        `lower` and raises AttributeError, non-numbers cannot be subtracted
        and raise TypeError), then the window must fit in the timeout and the
        type must be one of the configured ones. */
    function DefaultDecision(offer: Json): Result<bool>
      reads this
    {
      var creation := Index(offer, "message_creation_timestamp");
      var cutoff := Index(offer, "prediction_cutoff_timestamp");
      var ty := Index(offer, "prediction_type");
      if !creation.Ok? then Fail(creation)
      else if !cutoff.Ok? then Fail(cutoff)
      else if !ty.Ok? then Fail(ty)
      else if !ty.value.JStr? then Raised(AttributeError)
      else
        var start := Numeric(creation.value);
        var end := Numeric(cutoff.value);
        if !end.Ok? then Fail(end)
        else if !start.Ok? then Fail(start)
        else Ok(end.value - start.value <= maxTimeout * 60 && Lower(ty.value.s) in predictionTypes)
    }

    /** `compare`: a dictionary missing an expected key is refused before
        anything else runs; a custom function then decides alone. */
    function Compare(offer: Json): (r: Result<bool>)
      reads this
      ensures r.Ok? || r.Raised?
      ensures offer.JObj? && !HasExpectedFields(offer) ==> r == Ok(false)
      ensures HasExpectedFields(offer) && comparisonFunction.Some? ==> r == Ok(comparisonFunction.value(offer))
      ensures (offer.JNull? || offer.JBool? || offer.JInt?) ==> r == Raised(TypeError)
    {
      var present := AllPresent(offer, ExpectedFields);
      if !present.Ok? then Fail(present)
      else if !present.value then Ok(false)
      else if comparisonFunction.Some? then Ok(comparisonFunction.value(offer))
      else DefaultDecision(offer)
    }
  }

  /** A well-formed offer under the built-in rule is accepted exactly when its
      window is within the timeout (inclusive) and its lower-cased type is
      configured. */
  lemma DefaultRule(c: JobConfig, offer: Json)
    requires c.comparisonFunction.None? && HasExpectedFields(offer)
    requires offer.fields["message_creation_timestamp"].JInt?
    requires offer.fields["prediction_cutoff_timestamp"].JInt?
    requires offer.fields["prediction_type"].JStr?
    ensures c.Compare(offer)
      == Ok(Window(offer) <= c.maxTimeout * 60 && Lower(offer.fields["prediction_type"].s) in c.predictionTypes)
  {
    assert AllPresent(offer, ExpectedFields) == Ok(true);
  }

  /** A type the configuration does not list is refused however short the
      window. */
  lemma UnlistedTypeRejected(c: JobConfig, offer: Json)
    requires c.comparisonFunction.None? && HasExpectedFields(offer)
    requires offer.fields["message_creation_timestamp"].JInt?
    requires offer.fields["prediction_cutoff_timestamp"].JInt?
    requires offer.fields["prediction_type"].JStr?
    requires Lower(offer.fields["prediction_type"].s) !in c.predictionTypes
    ensures c.Compare(offer) == Ok(false)
  {
    DefaultRule(c, offer);
  }

  /** With a listed type the bound is inclusive: a window of exactly
      `maxTimeout` minutes is accepted, one second more is refused. */
  lemma TimeoutInclusive(c: JobConfig, offer: Json)
    requires c.comparisonFunction.None? && HasExpectedFields(offer)
    requires offer.fields["message_creation_timestamp"].JInt?
    requires offer.fields["prediction_cutoff_timestamp"].JInt?
    requires offer.fields["prediction_type"].JStr?
    requires Lower(offer.fields["prediction_type"].s) in c.predictionTypes
    ensures Window(offer) == c.maxTimeout * 60 ==> c.Compare(offer) == Ok(true)
    ensures Window(offer) == c.maxTimeout * 60 + 1 ==> c.Compare(offer) == Ok(false)
  {
    DefaultRule(c, offer);
  }

  /** Only the offer's type is lower-cased: two offers that differ only in the
      case of their type get the same answer. */
  lemma OfferTypeCaseInsensitive(c: JobConfig, offer: Json, other: string)
    requires c.comparisonFunction.None? && HasExpectedFields(offer)
    requires offer.fields["message_creation_timestamp"].JInt?
    requires offer.fields["prediction_cutoff_timestamp"].JInt?
    requires offer.fields["prediction_type"].JStr?
    requires Lower(other) == Lower(offer.fields["prediction_type"].s)
    ensures c.Compare(JObj(offer.fields["prediction_type" := JStr(other)])) == c.Compare(offer)
  {
    var changed := JObj(offer.fields["prediction_type" := JStr(other)]);
    assert HasExpectedFields(changed);
    DefaultRule(c, offer);
    DefaultRule(c, changed);
  }

  /** Configured types are compared as given: one with an upper-case letter
      matches no offer under the built-in rule. */
  lemma UpperCaseConfiguredTypeNeverMatches(c: JobConfig, offer: Json)
    requires c.comparisonFunction.None? && HasExpectedFields(offer)
    requires offer.fields["message_creation_timestamp"].JInt?
    requires offer.fields["prediction_cutoff_timestamp"].JInt?
    requires offer.fields["prediction_type"].JStr?
    requires forall t :: t in c.predictionTypes ==> HasUpper(t)
    ensures c.Compare(offer) == Ok(false)
  {
    DefaultRule(c, offer);
    var lowered := Lower(offer.fields["prediction_type"].s);
    assert !HasUpper(lowered);
    assert lowered !in c.predictionTypes;
  }

  /** The built-in rule's own errors: a type that is not a string raises
      AttributeError before the timestamps are subtracted; a string type with
      a timestamp that is not a number raises TypeError. */
  lemma DefaultRuleErrors(c: JobConfig, offer: Json)
    requires c.comparisonFunction.None? && HasExpectedFields(offer)
    ensures !offer.fields["prediction_type"].JStr? ==> c.Compare(offer) == Raised(AttributeError)
    ensures offer.fields["prediction_type"].JStr? &&
      (!Numeric(offer.fields["message_creation_timestamp"]).Ok? ||
       !Numeric(offer.fields["prediction_cutoff_timestamp"]).Ok?)
      ==> c.Compare(offer) == Raised(TypeError)
  {
    assert AllPresent(offer, ExpectedFields) == Ok(true);
  }
}

=== FILE: json.dfy ===
/** Decoded JSON documents as the Python code sees them after `json.loads`,
    and the few Python operations the client applies to them: `in`,
    subscripting with a string key, `.keys()`, truthiness and arithmetic.
    A dictionary is `JObj`; its key order is not modelled, because no
    modelled operation depends on it for a dictionary with one key. */
module Json {
  import opened Outcomes
  import opened Wire

  datatype Json =
    | JNull
    | JBool(b: bool)
    | JInt(i: int)
    | JStr(s: string)
    | JArr(items: seq<Json>)
    | JObj(fields: map<string, Json>)

  /** A dictionary-shaped message, as kept on the client's message stack. */
  type Msg = map<string, Json>

  /** The one-key dictionary `{key: value}`. */
  function Single(key: string, value: Json): (j: Json)
    ensures j.JObj? && j.fields.Keys == {key} && j.fields[key] == value
  {
    JObj(map[key := value])
  }

  /** Python truthiness: `None`, `False`, `0` and empty containers are false. */
  predicate Truthy(j: Json)
  {
    match j
    case JNull => false
    case JBool(b) => b
    case JInt(i) => i != 0
    case JStr(s) => s != ""
    case JArr(a) => a != []
    case JObj(m) => m != map[]
  }

  predicate IsPrefix(t: string, s: string)
  {
    |t| <= |s| && s[..|t|] == t
  }

  /** Python's `t in s` on two strings. */
  predicate IsSubstring(t: string, s: string)
    decreases |s|
  {
    IsPrefix(t, s) || (s != [] && IsSubstring(t, s[1..]))
  }

  lemma {:induction false} SubstringAt(t: string, s: string, i: nat)
    requires i + |t| <= |s| && s[i..i + |t|] == t
    ensures IsSubstring(t, s)
    decreases i
  {
    if i == 0 {
      assert s[..|t|] == s[0..|t|];
    } else {
      assert s[1..][i - 1..i - 1 + |t|] == s[i..i + |t|];
      SubstringAt(t, s[1..], i - 1);
    }
  }

  /** Python's `item in container` for a string `item`: key membership for a
      dictionary, substring for a string, element equality for a list, and
      TypeError for the other JSON values, which are not containers. */
  function Contains(container: Json, item: string): (r: Result<bool>)
    ensures container.JObj? ==> r == Ok(item in container.fields)
    ensures (container.JNull? || container.JBool? || container.JInt?) <==> r == Raised(TypeError)
    ensures r.Ok? || r.Raised?
  {
    match container
    case JObj(m) => Ok(item in m)
    case JStr(s) => Ok(IsSubstring(item, s))
    case JArr(a) => Ok(JStr(item) in a)
    case _ => Raised(TypeError)
  }

  /** Python's `j[key]` for a string key: a dictionary lookup that raises
      KeyError when the key is absent; every other JSON value raises TypeError
      (strings and lists want integer indices, the rest are not subscriptable). */
  function Index(j: Json, key: string): (r: Result<Json>)
    ensures r.Ok? <==> j.JObj? && key in j.fields
    ensures r.Ok? ==> r.value == j.fields[key]
    ensures r == Raised(KeyError) <==> j.JObj? && key !in j.fields
    ensures r == Raised(TypeError) <==> !j.JObj?
  {
    if j.JObj? then
      if key in j.fields then Ok(j.fields[key]) else Raised(KeyError)
    else Raised(TypeError)
  }

  /** Python's `key in j.keys()`: only a dictionary has `.keys()`. */
  function InKeys(j: Json, key: string): (r: Result<bool>)
    ensures r == (if j.JObj? then Ok(key in j.fields) else Raised(AttributeError))
  {
    if j.JObj? then Ok(key in j.fields) else Raised(AttributeError)
  }

  /** The integer a JSON number stands for in Python arithmetic (a bool is an
      int); other values make the arithmetic raise TypeError. */
  function Numeric(j: Json): (r: Result<int>)
    ensures r.Ok? <==> j.JInt? || j.JBool?
    ensures j.JInt? ==> r == Ok(j.i)
    ensures !r.Ok? ==> r == Raised(TypeError)
  {
    match j
    case JInt(i) => Ok(i)
    case JBool(b) => Ok(if b then 1 else 0)
    case _ => Raised(TypeError)
  }

  /** The JSON library, treated as opaque: `json.loads` on received bytes and
      on text (`None` where it raises ValueError), and `json.dumps`. */
  datatype JsonCodec = JsonCodec(
    loads: seq<byte> -> Option<Json>,
    loadsText: string -> Option<Json>,
    dumps: Json -> string)

  /** What `_send_message` turns a message into before encoding it: a
      dictionary is serialised, a string is sent as it is, and anything else
      has no `encode` (AttributeError). */
  function Serialize(codec: JsonCodec, message: Json): (r: Result<string>)
    ensures r.Ok? <==> message.JObj? || message.JStr?
    ensures message.JStr? ==> r == Ok(message.s)
    ensures !r.Ok? ==> r == Raised(AttributeError)
  {
    match message
    case JObj(_) => Ok(codec.dumps(message))
    case JStr(s) => Ok(s)
    case _ => Raised(AttributeError)
  }

  /** A dictionary with exactly one key has no other key. */
  lemma OnlyKey<V>(m: map<string, V>, k: string)
    requires |m| == 1 && k in m
    ensures m.Keys == {k}
  {
    assert |m.Keys - {k}| == 0;
  }

  /** The key of a one-key dictionary (Python's `list(message)[0]`). */
  function TheKey<V>(m: map<string, V>): (k: string)
    requires |m| == 1
    ensures m.Keys == {k}
  {
    var some :| some in m;
    OnlyKey(m, some);
    var k :| k in m;
    k
  }
}

=== FILE: legacy_enrollment.dfy ===
/** The older enrollment script at the repository root, `authenticate.py`.
    Its protocol is the one of `Enrollment` with three differences: the
    `NewModel` message carries no password, messages travel as raw JSON
    text with no length prefix (each read is one `recv(1024)` handed to
    `json.loads`, so a closed connection raises ValueError), and saving
    the credentials needs `sybl.json` to exist already.

    `parse_message`, the answer to a challenge, what `display_access`
    takes and the loop's dispatch are the same functions as in
    `Enrollment`, which this module reuses. */
module LegacyEnrollment {
  import opened Outcomes
  import opened Json
  import opened Wire
  import opened Transport
  import opened Credentials
  import opened Enrollment

  /** `{"NewModel": {"email", "model_name"}}`. */
  function LegacyNewModelMessage(email: string, modelName: string): (m: Json)
    ensures m.JObj? && m.fields.Keys == {"NewModel"}
    ensures m.fields["NewModel"].JObj?
    ensures m.fields["NewModel"].fields == map["email" := JStr(email), "model_name" := JStr(modelName)]
  {
    Single("NewModel", JObj(map["email" := JStr(email), "model_name" := JStr(modelName)]))
  }

  /** The legacy announcement is the current one without its password. */
  lemma NewModelWithoutPassword(email: string, password: string, modelName: string)
    ensures var current := NewModelMessage(email, password, modelName).fields["NewModel"].fields;
      LegacyNewModelMessage(email, modelName).fields["NewModel"].fields == current - {"password"}
  {
    var current := NewModelMessage(email, password, modelName).fields["NewModel"].fields;
    var legacy := LegacyNewModelMessage(email, modelName).fields["NewModel"].fields;
    assert legacy.Keys == current.Keys - {"password"};
  }

  /** `json.loads(self.stream.recv(1024))`: one read of at most 1024 bytes,
      parsed as a whole; ValueError whenever `loads` rejects the bytes read.
      The closed connection, whose empty read raises ValueError, is modelled
      by `Listen`. */
  method ReadMessage(s: Stream, codec: JsonCodec) returns (r: Result<Json>)
    modifies s
    ensures var document := Take(old(s.input), LegacyChunk);
      s.input == old(s.input)[|document|..] &&
      r == if codec.loads(document).Some? then Ok(codec.loads(document).value) else Raised(ValueError)
    ensures s.output == old(s.output)
  {
    var document := LegacyReceive(s);
    var doc := codec.loads(document);
    if doc.None? {
      return Raised(ValueError);
    }
    return Ok(doc.value);
  }

  /** `self.stream.send(json.dumps(message).encode("utf-8"))`: the text of a
      dictionary, with no length prefix. */
  method SendMessage(s: Stream, codec: JsonCodec, message: Msg)
    modifies s
    ensures s.output == old(s.output) + Utf8(codec.dumps(JObj(message)))
    ensures s.input == old(s.input)
  {
    LegacySend(s, codec.dumps(JObj(message)));
  }

  /** The `parse_message` of the legacy script on the documents of its
      tests: a one-key dictionary gives its key and value; two keys, or
      none, raise IndexError. */
  lemma ParseMessageCases(variant: string, data: Json, other: string, more: Json)
    requires other != variant
    ensures ParseMessage(Single(variant, data)) == Ok((JStr(variant), data))
    ensures ParseMessage(JObj(map[variant := data, other := more])) == Raised(IndexError)
    ensures ParseMessage(JObj(map[])) == Raised(IndexError)
  {
    var two := map[variant := data, other := more];
    assert variant in two && other in two;
    if |two| == 1 {
      OnlyKey(two, variant);
    }
  }

  class Authenication {
    const email: string
    const modelName: string
    /** The process environment, where `PRIVATE_KEY` is looked up. */
    const env: map<string, string>
    const crypto: Crypto
    var accessToken: Json
    var modelId: Json
    var streamOpen: bool
    /** The contents of `sybl.json`. */
    var store: StoreFile
    /** The messages sent, oldest first. */
    var sent: seq<Json>

    /** `__init__`, once the socket is connected. */
    constructor (email: string, modelName: string, env: map<string, string>, crypto: Crypto, store: StoreFile)
      ensures this.email == email && this.modelName == modelName
      ensures this.env == env && this.crypto == crypto && this.store == store
      ensures accessToken == JNull && modelId == JNull && streamOpen && sent == []
    {
      this.email := email;
      this.modelName := modelName;
      this.env := env;
      this.crypto := crypto;
      this.store := store;
      accessToken := JNull;
      modelId := JNull;
      streamOpen := true;
      sent := [];
    }

    /** What the model answers challenges with. */
    function Identity(): Signer
    {
      Signer(email, modelName, env, crypto)
    }

    /** `authenticate_challenge`: as in the current client, but the answer
        goes out unframed. */
    method AuthenticateChallenge(payload: Json) returns (st: Status)
      modifies this`sent
      ensures var answer := Answer(Identity(), payload);
        if answer.Ok? then st == Done && sent == old(sent) + answer.value
        else st == Fail(answer) && sent == old(sent)
    {
      var challenge := Index(payload, "challenge");
      if !challenge.Ok? {
        return Fail(challenge);
      }
      if PrivateKeyVariable !in env {
        return Done;
      }
      if !challenge.value.JStr? {
        return Raised(TypeError);
      }
      var decoded := crypto.b64decode(challenge.value.s);
      if decoded.None? {
        return Raised(ValueError);
      }
      var signature := crypto.sign(decoded.value, env[PrivateKeyVariable]);
      if signature.None? {
        return Raised(CodecError);
      }
      sent := sent + [ChallengeResponseMessage(email, modelName, crypto.b64encode(signature.value))];
      return Done;
    }

    /** `display_access`: takes what credentials the payload has and always
        closes the stream. */
    method DisplayAccess(payload: Json) returns (st: Status)
      modifies this`accessToken, this`modelId, this`streamOpen
      ensures var a := TakeAccess(payload, old(accessToken), old(modelId));
        st == a.outcome && accessToken == a.token && modelId == a.id
      ensures !streamOpen
    {
      streamOpen := false;
      var token := Index(payload, "token");
      if token == Raised(KeyError) {
        return Done;
      }
      if !token.Ok? {
        return Fail(token);
      }
      accessToken := token.value;
      var id := Index(payload, "id");
      if !id.Ok? {
        return Done;
      }
      modelId := id.value;
      return Done;
    }

    /** `save_access_tokens`: opens `sybl.json` for reading without creating
        it, so a missing file raises FileNotFoundError; otherwise the store
        gains this model's record and keeps every other. */
    method SaveAccessTokens() returns (st: Status)
      modifies this`store
      ensures var merged := LegacyMerge(old(store), ModelKey(email, modelName), Entry(modelId, accessToken));
        if merged.Ok? then st == Done && store == Holds(merged.value)
        else st == Fail(merged) && store == old(store)
    {
      var merged := LegacyMerge(store, ModelKey(email, modelName), Entry(modelId, accessToken));
      if !merged.Ok? {
        return Fail(merged);
      }
      store := Holds(merged.value);
      return Done;
    }

    /** One pass of the body of the `while True` loop of `verify` on the
        message read: the `try` block that parses it and dispatches on its
        variant, with IndexError caught. */
    method Handle(inbox: seq<Result<Json>>, i: nat) returns (step: Step)
      requires i < |inbox|
      modifies this`sent
      ensures step == Steps(Identity(), inbox)[i]
      ensures sent == old(sent) + (if step.Reply? then step.messages else [])
    {
      StepsAt(Identity(), inbox, i);
      var data := inbox[i];
      if !data.Ok? {
        return Stop(Fail(data));
      }
      var parsed := ParseMessage(data.value);
      if parsed == Raised(IndexError) {
        return Skip;
      }
      if !parsed.Ok? {
        return Stop(Fail(parsed));
      }
      var (variant, payload) := parsed.value;
      if variant == JStr("Challenge") {
        var answered := AuthenticateChallenge(payload);
        if !answered.Ok? {
          return Stop(answered);
        }
        return Reply(Answer(Identity(), payload).value);
      } else if variant == JStr("AccessToken") {
        return Grant(payload);
      }
      return Skip;
    }

    /** The `while True` loop of `verify`, up to the point where it either
        raises or reads an `AccessToken`; a read past the last message
        raises ValueError. */
    method Listen(inbox: seq<Result<Json>>) returns (ending: Ending)
      modifies this`sent
      ensures sent == old(sent) + Dialogue(Identity(), inbox, ValueError).replies
      ensures ending == Dialogue(Identity(), inbox, ValueError).ending
    {
      DialogueIsConversation(Identity(), inbox, ValueError);
      ghost var steps := Steps(Identity(), inbox);
      ghost var run := Conversation(steps, ValueError);
      ghost var replies: seq<Json> := [];
      var i := 0;
      while true
        invariant 0 <= i <= |inbox| && sent == old(sent) + replies
        invariant var rest := Conversation(steps[i..], ValueError);
          run == Run(replies + rest.replies, rest.ending)
        decreases |inbox| - i
      {
        if i == |inbox| {
          return Stopped(Raised(ValueError));
        }
        assert steps[i..][1..] == steps[i + 1..];
        ghost var rest := Conversation(steps[i + 1..], ValueError);
        var step := Handle(inbox, i);
        i := i + 1;
        match step
        case Skip =>
        case Reply(messages) =>
          assert replies + (messages + rest.replies) == (replies + messages) + rest.replies;
          replies := replies + messages;
        case Grant(payload) =>
          return Granted(payload);
        case Stop(outcome) =>
          return Stopped(outcome);
      }
    }

    /** `verify`: announces the model without a password, runs the loop,
        and once granted takes the credentials, closes the stream and
        saves them. */
    method Verify(inbox: seq<Result<Json>>) returns (st: Status)
      modifies this
      ensures var run := Dialogue(Identity(), inbox, ValueError);
        sent == old(sent) + [LegacyNewModelMessage(email, modelName)] + run.replies &&
        (run.ending.Stopped? ==>
           st == run.ending.outcome && accessToken == old(accessToken) && modelId == old(modelId) &&
           store == old(store) && streamOpen == old(streamOpen)) &&
        (run.ending.Granted? ==>
           var a := TakeAccess(run.ending.payload, old(accessToken), old(modelId));
           var merged := LegacyMerge(old(store), ModelKey(email, modelName), Entry(a.id, a.token));
           !streamOpen && accessToken == a.token && modelId == a.id &&
           (!a.outcome.Ok? ==> st == a.outcome && store == old(store)) &&
           (a.outcome.Ok? && merged.Ok? ==> st == Done && store == Holds(merged.value)) &&
           (a.outcome.Ok? && !merged.Ok? ==> st == Fail(merged) && store == old(store)))
    {
      sent := sent + [LegacyNewModelMessage(email, modelName)];
      var ending := Listen(inbox);
      if ending.Stopped? {
        return ending.outcome;
      }
      st := DisplayAccess(ending.payload);
      if !st.Ok? {
        return st;
      }
      st := SaveAccessTokens();
    }
  }

  /** A first enrollment, with no `sybl.json` yet, is granted its token and
      then fails to save it, although the current writer creates the file. */
  lemma FirstSaveFails(key: string, entry: Json)
    ensures LegacyMerge(Missing, key, entry) == Raised(FileNotFoundError)
    ensures Merge(Missing, key, entry) == Ok(Single(key, entry))
  {
  }
}

=== FILE: outcomes.dfy ===
/** The ways a Python call of the client can end: a value, a raised
    exception (named by its class), or a process exit through `sys.exit`. */
module Outcomes {

  datatype Option<+T> = None | Some(value: T)

  /** The Python exception classes that the modelled code raises or lets
      propagate. `StructError` is `struct.error`; `CodecError` stands for any
      failure of a library codec (base64, bz2, CSV parsing) that the model
      treats as opaque. */
  datatype PyError =
    | AttributeError
    | KeyError
    | TypeError
    | ValueError
    | IndexError
    | PermissionError
    | AssertionError
    | OverflowError
    | FileNotFoundError
    | StructError
    | CodecError

  datatype Result<+T> = Ok(value: T) | Raised(error: PyError) | Exited(status: int)

  /** The outcome of a call that returns nothing. */
  type Status = Result<()>

  const Done: Status := Ok(())

  /** A failed outcome passed on unchanged to the caller, as Python lets an
      exception (or a pending exit) propagate. */
  function Fail<T, U>(r: Result<T>): Result<U>
    requires !r.Ok?
  {
    match r
    case Raised(e) => Raised(e)
    case Exited(status) => Exited(status)
  }
}

=== FILE: transport.dfy ===
/** The framed transport shared by `sybl/client/sybl_client.py` and
    `sybl/authenticate.py` (`_read_message` / `_send_message`), and the
    unframed transport of the legacy `authenticate.py`.

    The socket is a `Stream`: the bytes the peer has sent and this side has
    not yet received, the bytes this side has sent, and a count of `recv`
    calls. `recv(n)` hands over the next `min(n, buffered)` bytes. */
module Transport {
  import opened Outcomes
  import opened Wire

  /** The chunk size of the large-message loop and the threshold above which
      it is used. */
  const ChunkSize: nat := 4096

  /** The largest read of the legacy client (`recv(1024)`). */
  const LegacyChunk: nat := 1024

  function Min(a: int, b: int): int { if a <= b then a else b }

  /** The bytes one `recv(n)` returns from the buffered input. */
  function Take(input: seq<byte>, n: nat): (chunk: seq<byte>)
    ensures |chunk| == Min(n, |input|) && chunk == input[..|chunk|]
  {
    input[..Min(n, |input|)]
  }

  class Stream {
    var input: seq<byte>
    var output: seq<byte>
    var recvCalls: nat

    constructor (incoming: seq<byte>)
      ensures input == incoming && output == [] && recvCalls == 0
    {
      input := incoming;
      output := [];
      recvCalls := 0;
    }

    /** `sock.recv(n)`. */
    method Recv(n: nat) returns (chunk: seq<byte>)
      modifies this
      ensures chunk == Take(old(input), n)
      ensures input == old(input)[|chunk|..]
      ensures recvCalls == old(recvCalls) + 1 && output == old(output)
    {
      chunk := Take(input, n);
      input := input[|chunk|..];
      recvCalls := recvCalls + 1;
    }

    /** `sock.send(bytes)`, modelled as writing everything. */
    method Send(bytes: seq<byte>)
      modifies this
      ensures output == old(output) + bytes
      ensures input == old(input) && recvCalls == old(recvCalls)
    {
      output := output + bytes;
    }
  }

  // ---------------------------------------------------------------------
  // Reading a frame, as written

  /** The bytes the large-message loop accumulates: while `remaining > 0` it
      calls `recv(4096)` and subtracts 4096, whatever the chunk held. */
  function Chunks(rest: seq<byte>, remaining: int): seq<byte>
    decreases remaining
  {
    if remaining <= 0 then []
    else
      var chunk := Take(rest, ChunkSize);
      chunk + Chunks(rest[|chunk|..], remaining - ChunkSize)
  }

  /** The number of `recv(4096)` calls of the large-message loop. */
  function ChunkCalls(remaining: int): nat
    decreases remaining
  {
    if remaining <= 0 then 0 else 1 + ChunkCalls(remaining - ChunkSize)
  }

  /** A received frame: its payload bytes, and whether the large-message
      path read it (the client screens server errors only on the other
      path). */
  datatype Frame = Frame(payload: seq<byte>, large: bool)

  /** What one `_read_message` does to the stream: the frame or the error,
      the bytes left in the stream, and the number of `recv` calls. */
  datatype Reading = Reading(result: Result<Frame>, rest: seq<byte>, calls: nat)

  /** The byte-level part of `_read_message`, as written. */
  function ReadSpec(input: seq<byte>): Reading
  {
    var header := Take(input, 4);
    var after := input[|header|..];
    if |header| < 4 then
      Reading(Raised(StructError), after, 1)
    else
      var size := Be32Value(header);
      if size > ChunkSize then
        var body := Chunks(after, size);
        Reading(Ok(Frame(body, true)), after[Min(|body|, |after|)..], 1 + ChunkCalls(size))
      else
        var body := Take(after, size);
        Reading(Ok(Frame(body, false)), after[|body|..], 2)
  }

  /** The loop runs ceil(remaining / 4096) times. */
  lemma {:induction false} ChunkCallsIsCeiling(remaining: int)
    requires remaining >= 0
    ensures ChunkCalls(remaining) == (remaining + ChunkSize - 1) / ChunkSize
    decreases remaining
  {
    if remaining > 0 {
      if remaining > ChunkSize {
        ChunkCallsIsCeiling(remaining - ChunkSize);
      } else {
        assert ChunkCalls(remaining - ChunkSize) == 0;
      }
    }
  }

  /** With every chunk full, the loop takes whole chunks: as many bytes as
      4096 times its number of iterations, or everything that is left. */
  lemma {:induction false} ChunksTakeWholeChunks(rest: seq<byte>, remaining: int)
    ensures Chunks(rest, remaining) == Take(rest, ChunkSize * ChunkCalls(remaining))
    decreases remaining
  {
    if remaining > 0 {
      var chunk := Take(rest, ChunkSize);
      ChunksTakeWholeChunks(rest[|chunk|..], remaining - ChunkSize);
      var k := ChunkCalls(remaining - ChunkSize);
      if |rest| >= ChunkSize {
        assert rest[ChunkSize..][..Min(ChunkSize * k, |rest| - ChunkSize)]
            == rest[ChunkSize..Min(ChunkSize * (k + 1), |rest|)];
        assert rest[..ChunkSize] + rest[ChunkSize..Min(ChunkSize * (k + 1), |rest|)]
            == rest[..Min(ChunkSize * (k + 1), |rest|)];
      } else {
        assert Take(rest[|chunk|..], ChunkSize * k) == [];
      }
    }
  }

  /** `_read_message` makes one `recv` for the prefix, then one more for a
      frame of at most 4096 bytes, or ceil(size / 4096) more for a larger one. */
  lemma ReadCallCount(input: seq<byte>)
    requires |input| >= 4
    ensures var size := Be32Value(input[..4]);
      ReadSpec(input).calls
        == 1 + (if size > ChunkSize then (size + ChunkSize - 1) / ChunkSize else 1)
  {
    var size := Be32Value(input[..4]);
    if size > ChunkSize {
      ChunkCallsIsCeiling(size);
    }
  }

  /** `ReadSpec` of a complete prefix followed by the rest of the stream. */
  lemma ReadSpecSplit(header: seq<byte>, after: seq<byte>)
    requires |header| == 4
    ensures var size := Be32Value(header);
      ReadSpec(header + after) ==
        if size > ChunkSize then
          Reading(Ok(Frame(Chunks(after, size), true)),
                  after[Min(|Chunks(after, size)|, |after|)..], 1 + ChunkCalls(size))
        else
          Reading(Ok(Frame(Take(after, size), false)), after[|Take(after, size)|..], 2)
  {
    assert Take(header + after, 4) == header;
    assert (header + after)[4..] == after;
  }

  /** A frame of at most 4096 bytes, followed by anything, is read back
      exactly: the payload that was sent, and nothing of what follows. */
  lemma SmallFrameRoundTrip(data: string, next: seq<byte>)
    requires ByteFrame(data).Ok? && |Utf8(data)| <= ChunkSize
    ensures ReadSpec(ByteFrame(data).value + next)
      == Reading(Ok(Frame(Utf8(data), false)), next, 2)
  {
    ByteFrameLayout(data);
    var f := ByteFrame(data).value;
    assert f == f[..4] + Utf8(data);
    SmallBodyRead(f[..4], Utf8(data), next);
  }

  /** The byte-level core of the previous lemma. */
  lemma SmallBodyRead(header: seq<byte>, payload: seq<byte>, next: seq<byte>)
    requires |header| == 4 && Be32Value(header) == |payload| <= ChunkSize
    ensures ReadSpec(header + payload + next) == Reading(Ok(Frame(payload, false)), next, 2)
  {
    assert header + payload + next == header + (payload + next);
    ReadSpecSplit(header, payload + next);
    assert Take(payload + next, |payload|) == payload;
    assert (payload + next)[|payload|..] == next;
  }

  /** A frame larger than 4096 bytes is read in whole 4096-byte chunks: the
      reader also takes the first `pad` bytes of whatever follows, where
      `pad` rounds the payload up to a multiple of 4096. */
  lemma LargeFrameReadsWholeChunks(data: string, next: seq<byte>)
    requires ByteFrame(data).Ok? && |Utf8(data)| > ChunkSize
    ensures var n := |Utf8(data)|;
      var pad := ChunkSize * ChunkCalls(n) - n;
      pad >= 0 &&
      ReadSpec(ByteFrame(data).value + next)
        == Reading(Ok(Frame(Utf8(data) + Take(next, pad), true)), next[Min(pad, |next|)..],
                   1 + ChunkCalls(n))
  {
    ByteFrameLayout(data);
    var f := ByteFrame(data).value;
    assert f == f[..4] + Utf8(data);
    LargeBodyRead(f[..4], Utf8(data), next);
  }

  /** The byte-level core of the previous lemma. */
  lemma LargeBodyRead(header: seq<byte>, payload: seq<byte>, next: seq<byte>)
    requires |header| == 4 && Be32Value(header) == |payload| > ChunkSize
    ensures var n := |payload|;
      var pad := ChunkSize * ChunkCalls(n) - n;
      pad >= 0 &&
      ReadSpec(header + payload + next)
        == Reading(Ok(Frame(payload + Take(next, pad), true)), next[Min(pad, |next|)..],
                   1 + ChunkCalls(n))
  {
    var n := |payload|;
    var after := payload + next;
    assert header + payload + next == header + after;
    ReadSpecSplit(header, after);
    ChunksTakeWholeChunks(after, n);
    ChunksCoverRemaining(n);
    TakeAcross(payload, next, ChunkSize * ChunkCalls(n));
  }

  /** The loop's chunks add up to at least what was asked for, and to
      more when that is not a multiple of 4096. */
  lemma {:induction false} ChunksCoverRemaining(remaining: int)
    ensures ChunkSize * ChunkCalls(remaining) >= remaining
    ensures remaining > 0 && remaining % ChunkSize != 0 ==> ChunkSize * ChunkCalls(remaining) > remaining
    decreases remaining
  {
    if remaining > 0 {
      ChunksCoverRemaining(remaining - ChunkSize);
      if remaining > ChunkSize {
        assert (remaining - ChunkSize) % ChunkSize == remaining % ChunkSize;
      }
    }
  }

  /** Taking past the end of a first part takes all of it and the start of
      what follows. */
  lemma TakeAcross(a: seq<byte>, b: seq<byte>, m: nat)
    requires m >= |a|
    ensures Take(a + b, m) == a + Take(b, m - |a|)
    ensures (a + b)[Min(|Take(a + b, m)|, |a + b|)..] == b[Min(m - |a|, |b|)..]
  {
    assert (a + b)[..|a| + Min(m - |a|, |b|)] == a + b[..Min(m - |a|, |b|)];
    assert (a + b)[|a| + Min(m - |a|, |b|)..] == b[Min(m - |a|, |b|)..];
  }

  /** The discrepancy the large-message loop exhibits: when the payload is
      not a multiple of 4096 bytes and another frame follows, the reader
      swallows the start of that frame, and what stays in the stream is no
      longer the next frame. */
  lemma LargeFrameSwallowsNextFrame(data: string, next: seq<byte>)
    requires ByteFrame(data).Ok? && |Utf8(data)| > ChunkSize
    requires |Utf8(data)| % ChunkSize != 0 && next != []
    ensures var r := ReadSpec(ByteFrame(data).value + next);
      r.result.Ok? && |r.result.value.payload| > |Utf8(data)| && r.rest != next
  {
    LargeFrameReadsWholeChunks(data, next);
    ChunksCoverRemaining(|Utf8(data)|);
    var r := ReadSpec(ByteFrame(data).value + next);
    assert |r.rest| < |next|;
  }

  /** What the client's own frame looks like to a reader of the same kind:
      when the text is not ASCII the prefix counts fewer bytes than were
      sent, so the reader returns a truncated payload and leaves the tail of
      the payload in the stream in front of the next frame. */
  lemma CharFrameTruncatesNonAscii(data: string, next: seq<byte>)
    requires CharFrame(data).Ok? && |Utf8(data)| <= ChunkSize && !IsAscii(data)
    ensures var payload := Utf8(data);
      |data| < |payload| &&
      ReadSpec(CharFrame(data).value + next)
        == Reading(Ok(Frame(payload[..|data|], false)), payload[|data|..] + next, 2)
  {
    Utf8Length(data);
    Be32RoundTrip(|data|);
    var payload := Utf8(data);
    var input := CharFrame(data).value + next;
    assert Take(input, 4) == Be32(|data|);
    assert input[4..] == payload + next;
    assert (payload + next)[..|data|] == payload[..|data|];
    assert (payload + next)[|data|..] == payload[|data|..] + next;
  }

  /** `_read_message` (both copies), as written: the prefix, then one read of
      `size` bytes or, above 4096, the chunk loop. */
  method ReadFrame(s: Stream) returns (r: Result<Frame>)
    modifies s
    ensures r == ReadSpec(old(s.input)).result
    ensures s.input == ReadSpec(old(s.input)).rest
    ensures s.recvCalls == old(s.recvCalls) + ReadSpec(old(s.input)).calls
    ensures s.output == old(s.output)
  {
    var header := s.Recv(4);
    if |header| < 4 {
      return Raised(StructError);
    }
    assert old(s.input) == header + s.input;
    ReadSpecSplit(header, s.input);
    var size := Be32Value(header);
    if size > ChunkSize {
      var body := ReadChunks(s, size);
      return Ok(Frame(body, true));
    }
    var body := s.Recv(size);
    return Ok(Frame(body, false));
  }

  /** One pass of the chunk loop, seen from the bytes accumulated so far. */
  lemma ChunkStep(buf: seq<byte>, rest: seq<byte>, remaining: int)
    requires remaining > 0
    ensures var chunk := Take(rest, ChunkSize);
      buf + Chunks(rest, remaining) == (buf + chunk) + Chunks(rest[|chunk|..], remaining - ChunkSize) &&
      buf + rest == (buf + chunk) + rest[|chunk|..]
  {
    var chunk := Take(rest, ChunkSize);
    assert rest == chunk + rest[|chunk|..];
  }

  /** The large-message loop of `_read_message`: `recv(4096)` until
      `remaining`, lowered by 4096 each time, is no longer positive. */
  method ReadChunks(s: Stream, size: int) returns (buf: seq<byte>)
    modifies s
    ensures buf == Chunks(old(s.input), size)
    ensures s.input == old(s.input)[Min(|buf|, |old(s.input)|)..]
    ensures s.recvCalls == old(s.recvCalls) + ChunkCalls(size)
    ensures s.output == old(s.output)
  {
    var remaining: int := size;
    buf := [];
    while remaining > 0
      invariant old(s.input) == buf + s.input
      invariant buf + Chunks(s.input, remaining) == Chunks(old(s.input), size)
      invariant s.recvCalls + ChunkCalls(remaining) == old(s.recvCalls) + ChunkCalls(size)
      invariant s.output == old(s.output)
      decreases remaining
    {
      ChunkStep(buf, s.input, remaining);
      var chunk := s.Recv(ChunkSize);
      buf := buf + chunk;
      remaining := remaining - ChunkSize;
    }
    assert buf == Chunks(old(s.input), size);
    assert s.input == old(s.input)[|buf|..];
  }

  // ---------------------------------------------------------------------
  // Reading a frame, as the protocol intends

  /** The intended reader: exactly `size` bytes after the prefix (fewer only
      when the stream ends first). */
  function ReadExactSpec(input: seq<byte>): (r: Result<(seq<byte>, seq<byte>)>)
  {
    var header := Take(input, 4);
    var after := input[|header|..];
    if |header| < 4 then Raised(StructError)
    else
      var body := Take(after, Be32Value(header));
      Ok((body, after[|body|..]))
  }

  /** Every byte frame, of any size, is read back exactly and leaves the
      next frame untouched. */
  lemma ExactFrameRoundTrip(data: string, next: seq<byte>)
    requires ByteFrame(data).Ok?
    ensures ReadExactSpec(ByteFrame(data).value + next) == Ok((Utf8(data), next))
  {
    ByteFrameLayout(data);
    var input := ByteFrame(data).value + next;
    assert Take(input, 4) == ByteFrame(data).value[..4];
    assert input[4..] == Utf8(data) + next;
  }

  /** The intended large-message loop: ask for at most what is still
      missing and subtract what actually arrived. */
  method ReadFrameExact(s: Stream) returns (r: Result<seq<byte>>)
    modifies s
    ensures ReadExactSpec(old(s.input)).Ok? ==>
      r == Ok(ReadExactSpec(old(s.input)).value.0) && s.input == ReadExactSpec(old(s.input)).value.1
    ensures ReadExactSpec(old(s.input)).Raised? ==> r == Raised(StructError)
    ensures s.output == old(s.output)
  {
    var header := s.Recv(4);
    if |header| < 4 {
      return Raised(StructError);
    }
    var size := Be32Value(header);
    ghost var after := s.input;
    var remaining: int := size;
    var buf: seq<byte> := [];
    while remaining > 0
      invariant 0 <= remaining <= size
      invariant after == buf + s.input
      invariant |buf| == size - remaining
      invariant s.output == old(s.output)
      decreases remaining
    {
      var chunk := s.Recv(Min(ChunkSize, remaining));
      if chunk == [] {
        break;
      }
      buf := buf + chunk;
      remaining := remaining - |chunk|;
    }
    assert buf == Take(after, size);
    return Ok(buf);
  }

  // ---------------------------------------------------------------------
  // Sending

  /** `_send_message` of `sybl/client/sybl_client.py`, given the JSON text. */
  method SendCharFrame(s: Stream, data: string) returns (st: Status)
    modifies s
    ensures st == (if CharFrame(data).Ok? then Done else Raised(OverflowError))
    ensures s.output == old(s.output) + (if CharFrame(data).Ok? then CharFrame(data).value else [])
    ensures s.input == old(s.input) && s.recvCalls == old(s.recvCalls)
  {
    var frame := CharFrame(data);
    if !frame.Ok? {
      return Raised(OverflowError);
    }
    s.Send(frame.value);
    return Done;
  }

  /** `_send_message` of `sybl/authenticate.py`, given the JSON text. */
  method SendByteFrame(s: Stream, data: string) returns (st: Status)
    modifies s
    ensures st == (if ByteFrame(data).Ok? then Done else Raised(OverflowError))
    ensures s.output == old(s.output) + (if ByteFrame(data).Ok? then ByteFrame(data).value else [])
    ensures s.input == old(s.input) && s.recvCalls == old(s.recvCalls)
  {
    var frame := ByteFrame(data);
    if !frame.Ok? {
      return Raised(OverflowError);
    }
    s.Send(frame.value);
    return Done;
  }

  // ---------------------------------------------------------------------
  // The legacy, unframed transport of authenticate.py

  /** `stream.send(json.dumps(message).encode("utf-8"))`: no prefix. */
  method LegacySend(s: Stream, data: string)
    modifies s
    ensures s.output == old(s.output) + Utf8(data)
    ensures s.input == old(s.input) && s.recvCalls == old(s.recvCalls)
  {
    s.Send(Utf8(data));
  }

  /** `stream.recv(1024)`, the bytes handed to `json.loads`. */
  method LegacyReceive(s: Stream) returns (document: seq<byte>)
    modifies s
    ensures document == Take(old(s.input), LegacyChunk)
    ensures s.input == old(s.input)[|document|..] && s.output == old(s.output)
  {
    document := s.Recv(LegacyChunk);
  }

  /** Without a prefix a legacy read recovers one whole message, when two
      were sent back to back, only if the first is exactly 1024 bytes long,
      or is at most that long and nothing follows it. Otherwise the read is
      a truncated message or two messages run together. */
  lemma LegacyReadBoundary(first: string, second: string)
    ensures Take(Utf8(first) + Utf8(second), LegacyChunk) == Utf8(first)
      <==> |Utf8(first)| == LegacyChunk || (|Utf8(first)| < LegacyChunk && second == [])
  {
    var a, b := Utf8(first), Utf8(second);
    Utf8Length(second);
    var t := Take(a + b, LegacyChunk);
    if |a| < LegacyChunk && second != [] {
      assert |b| > 0;
      assert |t| > |a|;
    }
    if |a| > LegacyChunk {
      assert |t| < |a|;
    }
    if |a| == LegacyChunk || (|a| < LegacyChunk && second == []) {
      assert second == [] ==> b == [];
      assert (a + b)[..|a|] == a;
    }
  }
}

=== FILE: wire.dfy ===
/** Byte-level encodings used on the wire: UTF-8 (`str.encode("utf-8")`),
    the 4-byte big-endian unsigned length (`int.to_bytes(4, "big")` and
    `struct.unpack(">I", ...)`), and the two length-prefixed frames the
    client builds. */
module Wire {
  import opened Outcomes

  /** An octet, as Python's `bytes` holds it. */
  newtype byte = x: int | 0 <= x < 0x100

  /** 2^32: the first length that does not fit in a 4-byte prefix. */
  const Two32: int := 0x1_0000_0000

  /** The UTF-8 encoding of one Unicode scalar value (1 to 4 bytes). */
  function EncodeChar(c: char): (bs: seq<byte>)
    ensures 1 <= |bs| <= 4
    ensures |bs| == 1 <==> (c as int) < 0x80
  {
    var n := c as int;
    if n < 0x80 then
      [n as byte]
    else if n < 0x800 then
      [(0xC0 + n / 0x40) as byte, (0x80 + n % 0x40) as byte]
    else if n < 0x10000 then
      [(0xE0 + n / 0x1000) as byte, (0x80 + (n / 0x40) % 0x40) as byte, (0x80 + n % 0x40) as byte]
    else
      [(0xF0 + n / 0x40000) as byte, (0x80 + (n / 0x1000) % 0x40) as byte,
       (0x80 + (n / 0x40) % 0x40) as byte, (0x80 + n % 0x40) as byte]
  }

  /** `s.encode("utf-8")`. */
  function Utf8(s: string): (bs: seq<byte>)
  {
    if s == [] then [] else EncodeChar(s[0]) + Utf8(s[1..])
  }

  predicate IsAscii(s: string)
  {
    forall i :: 0 <= i < |s| ==> (s[i] as int) < 0x80
  }

  /** UTF-8 never has fewer bytes than the string has characters, and has
      exactly as many precisely when every character is ASCII. */
  lemma {:induction false} Utf8Length(s: string)
    ensures |Utf8(s)| >= |s|
    ensures |Utf8(s)| == |s| <==> IsAscii(s)
  {
    if s != [] {
      Utf8Length(s[1..]);
      assert IsAscii(s) <==> (s[0] as int) < 0x80 && IsAscii(s[1..]) by {
        if IsAscii(s) {
          forall i | 0 <= i < |s[1..]| ensures (s[1..][i] as int) < 0x80 {
            assert s[1..][i] == s[i + 1];
          }
        }
        if (s[0] as int) < 0x80 && IsAscii(s[1..]) {
          forall i | 0 <= i < |s| ensures (s[i] as int) < 0x80 {
            if i > 0 { assert s[i] == s[1..][i - 1]; }
          }
        }
      }
    }
  }

  /** Encoding a concatenation is concatenating the encodings. */
  lemma {:induction false} Utf8Append(a: string, b: string)
    ensures Utf8(a + b) == Utf8(a) + Utf8(b)
  {
    if a != [] {
      assert (a + b)[0] == a[0];
      assert (a + b)[1..] == a[1..] + b;
      Utf8Append(a[1..], b);
    } else {
      assert a + b == b;
    }
  }

  /** `n.to_bytes(4, byteorder="big")` for an `n` that fits. */
  function Be32(n: nat): (bs: seq<byte>)
    requires n < Two32
    ensures |bs| == 4
  {
    [(n / 0x100_0000) as byte, ((n / 0x1_0000) % 0x100) as byte,
     ((n / 0x100) % 0x100) as byte, (n % 0x100) as byte]
  }

  /** `struct.unpack(">I", bs)[0]`. */
  function Be32Value(bs: seq<byte>): (n: nat)
    requires |bs| == 4
    ensures n < Two32
  {
    (bs[0] as int) * 0x100_0000 + (bs[1] as int) * 0x1_0000 + (bs[2] as int) * 0x100 + (bs[3] as int)
  }

  /** Decoding the prefix recovers the length. */
  lemma Be32RoundTrip(n: nat)
    requires n < Two32
    ensures Be32Value(Be32(n)) == n
  {
    var bs := Be32(n);
    assert bs[0] as int == n / 0x100_0000;
    assert bs[1] as int == (n / 0x1_0000) % 0x100;
    assert bs[2] as int == (n / 0x100) % 0x100;
    assert bs[3] as int == n % 0x100;
    assert n == (n / 0x100) * 0x100 + n % 0x100;
    assert n / 0x100 == (n / 0x1_0000) * 0x100 + (n / 0x100) % 0x100;
    assert n / 0x1_0000 == (n / 0x100_0000) * 0x100 + (n / 0x1_0000) % 0x100;
  }

  /** Every 4-byte prefix is the encoding of the length it decodes to. */
  lemma Be32Canonical(bs: seq<byte>)
    requires |bs| == 4
    ensures Be32(Be32Value(bs)) == bs
  {
    var n := Be32Value(bs);
    var a, b, c, d := bs[0] as int, bs[1] as int, bs[2] as int, bs[3] as int;
    var ab, abc := a * 0x100 + b, (a * 0x100 + b) * 0x100 + c;
    assert n == abc * 0x100 + d;
    ByteDigit(abc, d);
    ByteDigit(ab, c);
    ByteDigit(a, b);
    assert n / 0x1_0000 == ab;
    assert n / 0x100_0000 == a;
    assert Be32(n)[0] == bs[0] && Be32(n)[1] == bs[1] && Be32(n)[2] == bs[2] && Be32(n)[3] == bs[3];
  }

  /** Division by 256 splits off the last base-256 digit. */
  lemma ByteDigit(q: nat, r: int)
    requires 0 <= r < 0x100
    ensures (q * 0x100 + r) / 0x100 == q && (q * 0x100 + r) % 0x100 == r
  {
  }

  /** The frame `sybl/client/sybl_client.py` sends: the prefix counts the
      CHARACTERS of the JSON text, the payload is its UTF-8 bytes;
      `to_bytes` raises OverflowError when the count does not fit. */
  function CharFrame(data: string): (r: Result<seq<byte>>)
    ensures r.Ok? || r == Raised(OverflowError)
  {
    if |data| < Two32 then Ok(Be32(|data|) + Utf8(data)) else Raised(OverflowError)
  }

  /** The frame `sybl/authenticate.py` sends: the prefix counts the UTF-8
      BYTES of the payload. */
  function ByteFrame(data: string): (r: Result<seq<byte>>)
    ensures r.Ok? || r == Raised(OverflowError)
  {
    var payload := Utf8(data);
    if |payload| < Two32 then Ok(Be32(|payload|) + payload) else Raised(OverflowError)
  }

  /** A byte frame is its payload preceded by the prefix that decodes to the
      payload's length. */
  lemma ByteFrameLayout(data: string)
    requires ByteFrame(data).Ok?
    ensures var f := ByteFrame(data).value;
      |f| == 4 + |Utf8(data)| && f[4..] == Utf8(data) && Be32Value(f[..4]) == |Utf8(data)|
  {
    var f := ByteFrame(data).value;
    assert f[..4] == Be32(|Utf8(data)|);
    Be32RoundTrip(|Utf8(data)|);
  }

  /** The two senders produce the same bytes exactly when the text is ASCII
      (and neither overflows). */
  lemma FramesAgreeIffAscii(data: string)
    requires ByteFrame(data).Ok?
    ensures CharFrame(data) == ByteFrame(data) <==> IsAscii(data)
  {
    Utf8Length(data);
    if CharFrame(data) == ByteFrame(data) {
      var f := ByteFrame(data).value;
      assert f[..4] == Be32(|data|) && f[..4] == Be32(|Utf8(data)|);
      Be32RoundTrip(|data|);
      Be32RoundTrip(|Utf8(data)|);
    }
  }
}
